=== FILE: README.md ===
# A verified model of the vvorgle Wordle engine

vvorgle is a Wordle helper written in Rust. Its engine does five things.

- It computes the colour feedback of a guess against a secret word. A green is an exact hit. A yellow is a letter found elsewhere that has not been used yet. A black is everything else.
- It reads a `WORD FEEDBACK` line typed by the player.
- It prunes the candidate list by one guess and its feedback, using a green pass, a yellow pass and a black pass.
- It suggests the next guess from a fixed decision table.
- It analyses openers. An opener's feedback against every word of the list is encoded as a base-3 pattern id below 243. These ids are gathered into a histogram, and words are ranked by how many distinct letters they have.

This project restates that engine in Dafny as pure functions over sequences, with a few methods that mirror the source's loops. It proves what the engine promises:

- the feedback counts each letter exactly as often as guess and secret share it;
- the counter-based pattern id agrees with the feedback;
- the filter keeps exactly the words consistent with a guess, never loses the secret, and is idempotent;
- the parser accepts exactly the well-formed lines;
- the histogram counts the words, and the distribution lists each non-empty bucket once, largest first;
- over a whole session, the candidates are always the universe words consistent with every attempt so far.

Modules follow the source files:

- `Types` covers `types.rs`.
- `Words` holds characters, upper-casing and UTF-8 length.
- `Feedback`, `Constraints` and `Parse` cover `core.rs`. `main.rs` holds a copy of `Feedback` and `Constraints`, and a case-sensitive parser.
- `Pattern` and `Analyzer` cover `analyzer.rs`.
- `Solver` covers `solver.rs`.
- `Session` covers one round of the command-line game loop.
- `Oracles` and `ParseOracles` restate the repository's unit tests as facts about the model.
- `Seqs` holds generic sequence lemmas.

Three facts about the code shape the model:

- In `solver.rs`, the `entropy` and `frequency` strategies have no logic of their own. They hand the call on to the simple decision table unchanged.
- The `core.rs` parser upper-cases the typed line, but the copy in `main.rs` is case-sensitive. Both are modelled, and `Parse.ParseIsStrictOfUpper` relates them.
- The parsers check `str::len`, which counts UTF-8 bytes rather than characters, so the model checks the byte length.

## Model

| member | source | states |
|---|---|---|
| Types.NewGame | src/wordle/types.rs:20-26 | A fresh session holds the given candidates, no attempts and a zero counter. The counter matches the attempts. |
| Types.AddAttempt | src/wordle/types.rs:28-31 | Recording a guess appends it after the earlier attempts and bumps the counter by one. The candidates are untouched. |
| Types.RecordAllFromNew | src/wordle/types.rs:19-31 | `new` followed by any sequence of `add_attempt` calls holds exactly those guesses in order. The counter equals their number and the candidates are unchanged. |
| Types.MarkOf | src/wordle/types.rs:34-38 | Reading back a feedback symbol gives the character it was written as, for each of G, Y and B. |
| Feedback.CalculateFeedback | src/wordle/core.rs:73-101 | The feedback has five marks from G/Y/B. A mark is G exactly when guess and secret agree there. A Y marks a letter the secret holds elsewhere. Each letter is marked G or Y exactly min(copies in guess, copies in secret) times. A black letter is never followed by a yellow copy of itself. |
| Feedback.CalculateFeedbackLoops | src/wordle/core.rs:73-101 | The two nested loops, including the inner scan that breaks at the first unused matching secret letter, compute the feedback. |
| Feedback.BlackLetterCreditedElsewhere | src/wordle/core.rs:87-98 | A black position whose letter the secret does contain has had that letter's copies credited at another position. |
| Pattern.FeedbackId | src/wordle/analyzer.rs:165-203 | The id is below 243. It is 0 when either input is not five bytes. For five-letter inputs it is 242 (all green) exactly when the guess is the secret. |
| Pattern.FeedbackIdMatchesFeedback | src/wordle/analyzer.rs:172-202 | For upper-case five-letter words, the counter-based two-pass id is the base-3 encoding of the marks that `calculate_feedback` produces. |
| Pattern.AllGreenOnlyForGreens | src/wordle/analyzer.rs:4-6 | 242 is the code of five greens and of nothing else. |
| Pattern.Encode | src/wordle/analyzer.rs:197-202 | The loop `id = id * 3 + t` over the five trits gives a value below 3 to the power of the pattern length. `Pattern.DecodeEncode` and `Pattern.EncodeDecode` show that it is a bijection onto the ids below 243. |
| Pattern.Decode | src/wordle/analyzer.rs:206-222 | `pattern_to_string` without its glyphs gives five symbols. Symbol `i` is the base-3 digit of weight 3^(4-i) of the id: the loop pushes the lowest digit first, and the result is reversed. |
| Pattern.EncodeDecode | src/wordle/analyzer.rs:197-222 | Every id below 243 survives decoding into five trits and re-encoding. |
| Pattern.DecodeEncode | src/wordle/analyzer.rs:197-222 | Every five-mark pattern encodes below 243 and decodes back to itself. |
| Pattern.DecodeWraps | src/wordle/analyzer.rs:206-222 | Decoding reads only the five lowest base-3 digits, so ids at or above 243 wrap modulo 243. |
| Constraints.GetPositions | src/wordle/core.rs:3-14 | The result lists exactly the positions that carry the given mark, each paired with the guess letter there. |
| Constraints.FilterByGreen | src/wordle/core.rs:16-23 | `retain` keeps, in order, exactly the words with the guess letter at every green position. |
| Constraints.FilterByYellow | src/wordle/core.rs:25-35 | `retain` keeps, in order, exactly the words holding every yellow letter, but not at its yellow position. |
| Constraints.FilterByBlack | src/wordle/core.rs:37-65 | `retain` keeps, in order, exactly the words that lack every black letter the guess does not also show green or yellow. |
| Constraints.ShownLetters | src/wordle/core.rs:41-52 | The collected letters are exactly the guess letters at green or yellow positions. |
| Constraints.FilterWords | src/wordle/core.rs:67-71 | The three passes keep, in their original order, exactly the words consistent with all three rules. |
| Constraints.FilterWordsIdempotent | src/wordle/core.rs:67-71 | Filtering a second time by the same guess changes nothing. |
| Constraints.GreenYellowCommute | src/wordle/core.rs:67-71 | The green and yellow passes give the same list in either order. |
| Constraints.SolutionConsistent | src/wordle/core.rs:37-101 | The secret is consistent with the feedback it produces for any five-letter guess, including the black rule. |
| Constraints.FilterWordsSound | src/wordle/core.rs:67-101 | Filtering a list that holds the secret, by the secret's own feedback, keeps the secret. |
| Parse.SplitLosesOnlyWhitespace | src/wordle/core.rs:104 | The tokens of `split_whitespace`, put back together, are the line without its whitespace. |
| Parse.SplitTwoWords | src/wordle/core.rs:104-107 | Two whitespace-free words joined by one space split into exactly those two tokens. |
| Parse.Check | src/wordle/core.rs:112-118 | A guess is accepted exactly when the word is five bytes and the feedback is five G/Y/B characters. A bad word is reported before a bad feedback. |
| Parse.ParseInput | src/wordle/core.rs:103-119 | A line is accepted exactly when it has two tokens and they pass the checks after upper-casing. The guess holds the upper-cased tokens. A wrong token count is reported as such. |
| Parse.ParseInputStrict | src/main.rs:17-33 | The same checks on the tokens as typed; an accepted guess holds exactly the two tokens. |
| Parse.ParseIsStrictOfUpper | src/wordle/core.rs:103-119 | The upper-casing parser is the strict parser applied to the upper-cased line. |
| Words.UpperIdempotent | src/wordle/core.rs:109-110 | Upper-casing twice is upper-casing once. A string is its own upper-casing exactly when it holds no lower-case letter. |
| Words.UpperKeepsBytes | src/wordle/core.rs:109-112 | Upper-casing keeps the UTF-8 byte length, so the length check sees the typed word's length. |
| Analyzer.Histogram | src/wordle/analyzer.rs:59-65 | The histogram has 243 buckets. Each bucket holds the number of words whose pattern id is its index, and the buckets add up to the number of words. |
| Analyzer.FillHistogram | src/wordle/analyzer.rs:59-65 | The loop `hist[feedback_id(guess, w)] += 1` over the list builds that histogram. |
| Analyzer.ScoreAsOpener | src/wordle/analyzer.rs:58-84 | The result is the histogram and the sum of squared bucket sizes, which lies between n and n*n for n words. The win count is the all-green bucket. For a five-letter guess, that is the number of copies of the guess in the list. For any other guess, `feedback_id` is always 0, so the win count is 0. |
| Analyzer.AllGreenCountsGuess | src/wordle/analyzer.rs:81 | Exactly the copies of a five-letter guess score the all-green pattern. |
| Analyzer.BucketBounds | src/wordle/analyzer.rs:70-78 | n <= sum of squared bucket sizes <= n*n for the histogram of n words. |
| Analyzer.NoWinsOffLength | src/wordle/analyzer.rs:169-171 | A guess that is not five letters long leaves the all-green bucket empty. |
| Analyzer.SquaredTotal | src/wordle/analyzer.rs:70-78 | The loop over the non-empty buckets sums their squares. |
| Analyzer.Distribution | src/wordle/analyzer.rs:152-157 | Every non-empty bucket is listed exactly as counted, and nothing else. Larger buckets come first, with equal buckets in pattern order, as the stable sort leaves them. The counts add up to the total. |
| Analyzer.AnalyzeWord | src/wordle/analyzer.rs:131-160 | The result is None exactly when the word is not five bytes. Otherwise it holds the sum of squares of the upper-cased word's histogram, which lies within [n, n*n], its win count (copies of the word in the list) and its ranked distribution covering all n words. |
| Analyzer.UniqueCountBounds | src/wordle/analyzer.rs:91-92 | The number of distinct letters is at most the length, at least one for a non-empty word, and equals the length exactly when no letter repeats. |
| Analyzer.Frequency | src/wordle/analyzer.rs:113-128 | The count behind each `(letter, position)` frequency is at most the number of words. Its exact value is stated by `Analyzer.FrequencyIsColumnCount`. |
| Analyzer.FrequencyIsColumnCount | src/wordle/analyzer.rs:113-128 | The count of letter `c` at position `i` is its multiplicity among the letters the words have at `i`. Those letters are exactly one per word longer than `i`, so the counts over all letters add up to that number of words. |
| Analyzer.PositionScoreIsAgreement | src/wordle/analyzer.rs:95-102 | Summing a word's letter frequencies position by position equals counting, word by word, the positions where each list word has the same letter. |
| Analyzer.RankDiverse | src/wordle/analyzer.rs:89-108 | The result is a permutation of the scored words in which no entry is outranked by a later one. More distinct letters rank first, then a higher position score. |
| Analyzer.DiverseStarters | src/wordle/analyzer.rs:87-111 | `take(top_n)` of the ranking: the result is the first min(top_n, n) entries of `RankDiverse`. It is a sub-multiset of the scored words, so no entry is repeated beyond its copies in the list. Its entries are in ranking order, and no word left out outranks a word kept. |
| Solver.CreateSolver | src/wordle/solver.rs:51-58 | "entropy" and "frequency" select their strategies, and every other name selects the simple one. |
| Solver.SimpleSuggest | src/wordle/solver.rs:11-34 | The decision table: CRANE first. Then the sole or first candidate when at most 20 remain, or SLATE when none remain. With more than 20 left: SLATE on the second guess, MOIST on the third, then the first candidate. |
| Solver.Suggest | src/wordle/solver.rs:37-49 | `suggest_guess` called through any of the three strategies returns exactly what the simple decision table returns. |
| Solver.SuggestionIsCandidateOrFixed | src/wordle/solver.rs:37-49 | Every strategy suggests what the simple one does, and the word list never matters. A suggestion is a current candidate or one of CRANE/SLATE/MOIST. PRINT only comes back as the first candidate. |
| Session.Play | src/ui/cli.rs:141-143 | One round appends the guess to the attempts and bumps the counter by one. The candidates become the order-preserving filter of the old ones by consistency with the guess, so every copy of a consistent word stays. The state stays valid. |
| Session.PlayAgainst | src/ui/cli.rs:141-143 | Playing a list of five-letter guesses against a five-letter secret keeps every candidate at least five letters long. Each round then has its filter defined. What the rounds do to the counter and the candidates is stated by `Session.SessionInvariant`. |
| Session.SessionInvariant | src/ui/cli.rs:141-143 | Over any number of rounds against a secret, the counter counts the rounds. The candidates are exactly the universe words consistent with every attempt, and the secret is never lost. |
| Session.SecretSurvives | src/ui/cli.rs:141-143 | A fresh session over a universe holding the secret still holds it after any sequence of guesses. |
| Oracles.FeedbackAllGreen | src/main.rs:407-410 | CRANE against CRANE gives GGGGG. |
| Oracles.FeedbackMixed | src/main.rs:413-422 | TRACE against CRANE gives BGGYG. |
| Oracles.FeedbackDuplicateLetters | src/main.rs:425-434 | LLAMA against LEVEL gives GYBBB: the second L takes the spare L, and nothing is left for A or M. |
| Oracles.FeedbackAllYellow | src/main.rs:437-442 | EABCD against ABCDE gives YYYYY. |
| Oracles.FilterGreenOnly | src/main.rs:483-502 | The green pass for CRANE/GBBBB keeps CRANE and CRATE and removes BRAKE and DRAKE. |
| Oracles.FilterYellowOnly | src/main.rs:505-527 | The yellow pass for CRANE/BYBBB keeps RAVEN and SOBER. It removes CRANE and BRAKE (R at position 1) and THINK (no R). |
| Oracles.FilterBlackOnly | src/main.rs:530-553 | The black pass for an all-black CRANE keeps LIGHT, DUMPS and GLYPH and removes CRANE, STAIR and POUND. |
| Oracles.FilterBlackSimple | src/main.rs:556-579 | The same black pass keeps WIMPY, DUMPS and GLYPH and removes WORLD, WORTH and POUND. |
| Oracles.FilterGreenLetters | src/main.rs:582-599 | All three passes for CRANE/GBBBB remove CRANE, CRATE, BRAKE and DRAKE, each of which holds an R. |
| Oracles.FilterIntegration | src/main.rs:602-638 | Filtering by CRANE/BYBBB keeps SPORT, SHIRT and QUIRK and removes FROST, TRUCK, GROUT, BROTH and DRUMS. |
| Oracles.FilterRealistic | src/main.rs:641-672 | Filtering by CRANE/BGGYB keeps BRAIN, GRAIN and TRAIN and removes CRANE, STAIN, PLAIN and CHAIN. |
| Oracles.FilterMixed | src/main.rs:675-699 | Filtering by LIGHT/BGGGG keeps SIGHT, MIGHT, NIGHT, FIGHT and TIGHT and removes LIGHT. |
| Oracles.RealisticRule | src/main.rs:641-672 | For any five-letter word, consistency with CRANE/BGGYB is R and A in place, an N away from position 3, and no C or E. |
| Oracles.IntegrationRule | src/main.rs:602-638 | For any five-letter word, consistency with CRANE/BYBBB is an R away from position 1 and none of C, A, N, E. |
| Oracles.GreenLettersRule | src/main.rs:582-599 | For any five-letter word, consistency with CRANE/GBBBB is a C in front and none of R, A, N, E. |
| ParseOracles.StrictAccepts | src/main.rs:445-458 | "CRANE GYYBB" parses to the guess CRANE with feedback GYYBB. |
| ParseOracles.RejectsShortWord | src/main.rs:461-465 | "CRAN GYYBB" is rejected for the word length. |
| ParseOracles.RejectsShortFeedback | src/main.rs:468-472 | "CRANE GYBB" is rejected for the feedback. |
| ParseOracles.RejectsForeignSymbol | src/main.rs:475-479 | "CRANE GYxBx" is rejected for the feedback. |
| ParseOracles.NormalisingAcceptsLowerCase | src/wordle/core.rs:103-119 | The upper-casing parser accepts "crane gyybb" as CRANE/GYYBB. |
| ParseOracles.StrictRejectsLowerCase | src/main.rs:17-33 | The parser in `main.rs` rejects lower-case feedback. |

## Left out

- The interactive loops are not modelled: `main`, `solver_mode` and `game_mode` in `main.rs`, and the prompts, colour glyphs and printing of `cli.rs`. They are I/O. `Session` models only the round `add_attempt` then `filter_words`.
- Session.PlayAgainst: the game stops at an all-green feedback before recording it (`cli.rs` lines 132-139). The model records every guess it is given, because the stop is a control-flow choice of the I/O loop.
- `load_words`, `load_words_from_file` and `core_compressed.rs` are not modelled. They read files and gzip data; the model takes the word list as a parameter.
- The floating-point results are left out: the entropy, the expected remaining count and the win probability of `score_as_opener`, and the ordering of `find_best_starters`. The model keeps the integer quantities they are computed from: the histogram, the sum of squares and the all-green count.
- Analyzer.RankDiverse: the position score is kept as the integer sum of letter counts rather than that sum divided by the list size as `f64`. Dividing by the same positive total preserves the order up to rounding. The stability of the sort among exact ties is not stated.
- Analyzer.DiverseStarters: inherits the integer position score above.
- The progress messages on standard error and the "not in word list" warning are not modelled. They are output only.
- The glyph string of `pattern_to_string` is not modelled. `Pattern.Decode` yields the five trits instead.
- The duplicate `get_positions`, filters and `calculate_feedback` in `main.rs` (lines 35-131) are not modelled separately. They repeat the code of `core.rs`, which is modelled once. Only the `main.rs` `parse_input` differs, and it is modelled as `Parse.ParseInputStrict`.
- `get_available_letters_sorted` is not part of this model.
- Feedback.CalculateFeedback: requires both words to have exactly five characters. The source indexes positions 0 to 4, so it ignores extra characters and panics on shorter input.
- Constraints.FilterWords: requires every marked feedback position to index a character of the guess, and every green or yellow position to index a character of each word. The source panics on a guess that is too short. A word that is too short makes it panic only if no earlier check of the same pass has already rejected that word, because `all` and `&&` stop at the first failure. The model leaves out all such short words, including the ones the source rejects without a panic.
- Pattern.FeedbackId: requires both strings to be ASCII. The source measures length in bytes and the model in characters, and the two agree only on ASCII text. So non-ASCII input is left out, even though the source returns 0 for it whenever a byte length is not 5. The model also requires letters wherever two five-letter words differ. For any other ASCII character there, the source's `to_ascii_uppercase() - b'A'` underflows or indexes past the 26 counters.
- Analyzer.AnalyzeWord: requires the upper-cased word to be scorable against every word of the list, for the same reason.
- Parse.ParseInput: upper-casing is ASCII-only. Rust's `to_uppercase` also maps non-ASCII letters, some to several characters. Only ASCII letters are modelled, so `Words.Upper` keeps length and byte length.
- Integer widths are not modelled as bounded. The `usize` histogram and sum of squares are unbounded `nat`s. They cannot overflow for word lists of realistic size, and the `i8` counters of `feedback_id` never exceed five.

=== FILE: analyzer.dfy ===
/** The opener analysis of `analyzer.rs`, in its integer parts: the
    243-bucket histogram of an opener's patterns over the word list, the
    sum of squared bucket sizes, the all-green bucket, the pattern
    distribution of `analyze_word`, and the distinct-letter ranking of
    `find_diverse_starters`. */
module Analyzer {
  import opened Words
  import opened Types
  import opened Seqs
  import opened Pattern

  /** `feedback_id(guess, w)` can be evaluated for every word of the list. */
  predicate Scorable(guess: string, words: seq<string>)
  {
    forall k :: 0 <= k < |words| ==> Computable(guess, words[k])
  }

  /** The pattern id of `guess` against each word, in list order. */
  function Ids(guess: string, words: seq<string>): (ids: seq<nat>)
    requires Scorable(guess, words)
    ensures |ids| == |words|
    ensures forall k :: 0 <= k < |words| ==> ids[k] == FeedbackId(guess, words[k])
    ensures PatternIds(ids)
  {
    seq(|words|, k requires 0 <= k < |words| => FeedbackId(guess, words[k]))
  }

  /** Every id names one of the 243 patterns. */
  predicate PatternIds(ids: seq<nat>)
  {
    forall k :: 0 <= k < |ids| ==> ids[k] < NumPatterns
  }

  /** `hist[id] += 1` for each id in turn, from 243 empty buckets. */
  function Tally(ids: seq<nat>): (hist: seq<nat>)
    requires PatternIds(ids)
    ensures |hist| == NumPatterns
    ensures Sum(hist) == |ids|
    decreases |ids|
  {
    if |ids| == 0 then
      SumZeros(NumPatterns);
      Zeros(NumPatterns)
    else
      var n := |ids| - 1;
      assert PatternIds(ids[..n]) by {
        forall k | 0 <= k < n
          ensures ids[..n][k] < NumPatterns
        {
          assert ids[..n][k] == ids[k];
        }
      }
      var h := Tally(ids[..n]);
      SumIncrement(h, ids[n]);
      h[ids[n] := h[ids[n]] + 1]
  }

  /** Each bucket of the tally holds the number of times its id occurs. */
  lemma {:induction false} TallyCounts(ids: seq<nat>, p: nat)
    requires PatternIds(ids) && p < NumPatterns
    ensures Tally(ids)[p] == multiset(ids)[p]
    decreases |ids|
  {
    if |ids| > 0 {
      var n := |ids| - 1;
      TallyCounts(ids[..n], p);
      assert ids == ids[..n] + [ids[n]];
      SnocCount(ids[..n], ids[n], p);
    }
  }

  /** Tallying one more id bumps its bucket. */
  lemma TallyStep(ids: seq<nat>, i: nat, hist: seq<nat>, id: nat)
    requires PatternIds(ids) && i < |ids| && id == ids[i]
    requires PatternIds(ids[..i]) && hist == Tally(ids[..i])
    ensures id < |hist| && PatternIds(ids[..i + 1])
    ensures hist[id := hist[id] + 1] == Tally(ids[..i + 1])
  {
    assert ids[..i + 1][..i] == ids[..i];
  }

  /** The histogram `hist[feedback_id(guess, solution)] += 1` over the
      list: 243 buckets that share out the words, each counting the words
      that give its pattern. */
  function Histogram(guess: string, words: seq<string>): (hist: seq<nat>)
    requires Scorable(guess, words)
    ensures |hist| == NumPatterns
    ensures Sum(hist) == |words|
    ensures forall p :: 0 <= p < NumPatterns ==> hist[p] == multiset(Ids(guess, words))[p]
  {
    var ids := Ids(guess, words);
    forall p | 0 <= p < NumPatterns
      ensures Tally(ids)[p] == multiset(ids)[p]
    {
      TallyCounts(ids, p);
    }
    Tally(ids)
  }

  /** Against a five-letter guess only the guess itself scores all green. */
  lemma AllGreenIffGuess(guess: string, w: string)
    requires Computable(guess, w) && |guess| == WordLength
    ensures FeedbackId(guess, w) == AllGreen <==> w == guess
  {
    if |w| != WordLength {
      assert FeedbackId(guess, w) == 0;
    }
  }

  /** Only the secret itself gives the all-green pattern, so the all-green
      bucket counts the copies of the guess in the list. */
  lemma AllGreenCountsGuess(guess: string, words: seq<string>)
    requires Scorable(guess, words) && |guess| == WordLength
    ensures multiset(Ids(guess, words))[AllGreen] == multiset(words)[guess]
  {
    var ids := Ids(guess, words);
    forall k | 0 <= k < |words|
      ensures ids[k] == AllGreen <==> words[k] == guess
    {
      AllGreenIffGuess(guess, words[k]);
    }
    CountCorresponding(ids, words, AllGreen, guess);
  }

  /** `score_as_opener` without its floating-point results: the loop that
      fills the histogram, then the sum of squared bucket sizes and the
      all-green bucket. `sumSquares` is `n` times the expected number of
      remaining candidates and `wins` is `n` times the chance of winning,
      for `n` words. */
  method ScoreAsOpener(guess: string, words: seq<string>) returns (hist: seq<nat>, sumSquares: nat, wins: nat)
    requires Scorable(guess, words)
    ensures hist == Histogram(guess, words)
    ensures sumSquares == SumSquares(hist)
    ensures |words| <= sumSquares <= |words| * |words|
    ensures wins == hist[AllGreen]
    ensures |guess| == WordLength ==> wins == multiset(words)[guess]
    ensures |guess| != WordLength ==> wins == 0
  {
    hist := FillHistogram(guess, words);
    sumSquares := SquaredTotal(hist);
    wins := hist[AllGreen];
    BucketBounds(guess, words);
    if |guess| == WordLength {
      WinsCountGuess(guess, words);
    } else {
      NoWinsOffLength(guess, words);
    }
  }

  /** The loop `hist[feedback_id(guess, solution)] += 1` over the list. */
  method FillHistogram(guess: string, words: seq<string>) returns (hist: seq<nat>)
    requires Scorable(guess, words)
    ensures hist == Histogram(guess, words)
  {
    hist := Zeros(NumPatterns);
    ghost var ids := Ids(guess, words);
    assert ids[..0] == [];
    var i := 0;
    while i < |words|
      invariant i <= |words|
      invariant PatternIds(ids[..i])
      invariant hist == Tally(ids[..i])
    {
      var pid := FeedbackId(guess, words[i]);
      TallyStep(ids, i, hist, pid);
      hist := hist[pid := hist[pid] + 1];
      i := i + 1;
    }
    assert ids[..i] == ids;
  }

  /** The all-green bucket holds the copies of a five-letter guess. */
  lemma WinsCountGuess(guess: string, words: seq<string>)
    requires Scorable(guess, words) && |guess| == WordLength
    ensures Histogram(guess, words)[AllGreen] == multiset(words)[guess]
  {
    AllGreenCountsGuess(guess, words);
  }

  /** A guess that is not five letters long scores pattern 0 against every
      word, so its all-green bucket stays empty. */
  lemma NoWinsOffLength(guess: string, words: seq<string>)
    requires Scorable(guess, words) && |guess| != WordLength
    ensures Histogram(guess, words)[AllGreen] == 0
  {
    var ids := Ids(guess, words);
    assert AllGreen !in ids by {
      forall k | 0 <= k < |ids|
        ensures ids[k] != AllGreen
      {
        assert ids[k] == FeedbackId(guess, words[k]);
      }
    }
  }

  /** The loop `sum_sq += count * count` over the non-empty buckets. */
  method SquaredTotal(hist: seq<nat>) returns (total: nat)
    ensures total == SumSquares(hist)
  {
    total := 0;
    var p := 0;
    while p < |hist|
      invariant p <= |hist|
      invariant total == SumSquares(hist[..p])
    {
      var count := hist[p];
      if count > 0 {
        total := total + count * count;
      }
      SumSquaresSnoc(hist[..p], count);
      assert hist[..p + 1] == hist[..p] + [count];
      p := p + 1;
    }
    assert hist[..p] == hist;
  }

  /** `n <= sum of squares <= n * n` for the histogram of `n` words. */
  lemma BucketBounds(guess: string, words: seq<string>)
    requires Scorable(guess, words)
    ensures |words| <= SumSquares(Histogram(guess, words)) <= |words| * |words|
  {
    var hist := Histogram(guess, words);
    forall k | 0 <= k < |hist|
      ensures hist[k] <= |words|
    {
      EntryBelowSum(hist, k);
    }
    SumSquaresBounds(hist, |words|);
  }

  /** One entry of `analyze_word`'s pattern distribution. */
  datatype Bucket = Bucket(pid: nat, count: nat)

  function Count(b: Bucket): nat
  {
    b.count
  }

  function SumCounts(bs: seq<Bucket>): nat
    decreases |bs|
  {
    if |bs| == 0 then 0 else bs[0].count + SumCounts(bs[1..])
  }

  /** The non-empty buckets from `from` on, in increasing pattern order. */
  function NonZeroBuckets(hist: seq<nat>, from: nat): (bs: seq<Bucket>)
    requires from <= |hist|
    ensures forall k :: 0 <= k < |bs| ==> from <= bs[k].pid < |hist|
    ensures forall k :: 0 <= k < |bs| ==> bs[k].count == hist[bs[k].pid] && bs[k].count > 0
    ensures forall i, j :: 0 <= i < j < |bs| ==> bs[i].pid < bs[j].pid
    decreases |hist| - from
  {
    if from == |hist| then []
    else
      var rest := NonZeroBuckets(hist, from + 1);
      if hist[from] > 0 then [Bucket(from, hist[from])] + rest else rest
  }

  /** Every non-empty bucket is listed, and the counts add up to the
      histogram's total. */
  lemma {:induction false} NonZeroBucketsComplete(hist: seq<nat>, from: nat)
    requires from <= |hist|
    ensures forall p :: from <= p < |hist| && hist[p] > 0 ==> Bucket(p, hist[p]) in NonZeroBuckets(hist, from)
    ensures SumCounts(NonZeroBuckets(hist, from)) == Sum(hist[from..])
    decreases |hist| - from
  {
    if from < |hist| {
      NonZeroBucketsComplete(hist, from + 1);
      assert hist[from..][1..] == hist[from + 1..];
      var rest := NonZeroBuckets(hist, from + 1);
      if hist[from] > 0 {
        assert ([Bucket(from, hist[from])] + rest)[1..] == rest;
      }
    }
  }

  /** Larger buckets first; equal buckets in increasing pattern order. */
  predicate Ranked(bs: seq<Bucket>)
  {
    forall i, j :: 0 <= i < j < |bs| ==>
      bs[i].count > bs[j].count || (bs[i].count == bs[j].count && bs[i].pid < bs[j].pid)
  }

  lemma {:induction false} InsertRanked(x: Bucket, ys: seq<Bucket>)
    requires Ranked(ys)
    requires forall k :: 0 <= k < |ys| ==> x.pid < ys[k].pid
    ensures Ranked(InsertByKey(x, ys, Count))
    decreases |ys|
  {
    if |ys| > 0 && Count(x) < Count(ys[0]) {
      InsertRanked(x, ys[1..]);
      var rest := InsertByKey(x, ys[1..], Count);
      forall i | 0 <= i < |rest|
        ensures rest[i].count < ys[0].count || (rest[i].count == ys[0].count && ys[0].pid < rest[i].pid)
      {
        assert rest[i] in multiset(rest);
        if rest[i] != x {
          assert rest[i] in multiset(ys[1..]);
          var k :| 0 <= k < |ys[1..]| && ys[1..][k] == rest[i];
          assert ys[k + 1] == rest[i];
        }
      }
    }
  }

  lemma {:induction false} InsertSumCounts(x: Bucket, ys: seq<Bucket>)
    ensures SumCounts(InsertByKey(x, ys, Count)) == x.count + SumCounts(ys)
    decreases |ys|
  {
    if |ys| > 0 && Count(x) < Count(ys[0]) {
      InsertSumCounts(x, ys[1..]);
      assert ([ys[0]] + InsertByKey(x, ys[1..], Count))[1..] == InsertByKey(x, ys[1..], Count);
    } else {
      assert ([x] + ys)[1..] == ys;
    }
  }

  /** In a list of increasing pattern ids the head's id is below every
      other entry's. */
  lemma HeadPidLeast(bs: seq<Bucket>)
    requires |bs| > 0
    requires forall i, j :: 0 <= i < j < |bs| ==> bs[i].pid < bs[j].pid
    ensures forall b :: b in multiset(bs[1..]) ==> bs[0].pid < b.pid
  {
    forall b | b in multiset(bs[1..])
      ensures bs[0].pid < b.pid
    {
      var m :| 0 <= m < |bs[1..]| && bs[1..][m] == b;
      assert bs[m + 1] == b;
    }
  }

  /** The stable sort by `Reverse(count)` of a list in increasing pattern
      order ranks it, and keeps the total. */
  lemma {:induction false} SortRanks(bs: seq<Bucket>)
    requires forall i, j :: 0 <= i < j < |bs| ==> bs[i].pid < bs[j].pid
    ensures Ranked(SortByKeyDesc(bs, Count))
    ensures SumCounts(SortByKeyDesc(bs, Count)) == SumCounts(bs)
    decreases |bs|
  {
    if |bs| > 0 {
      var rest := SortByKeyDesc(bs[1..], Count);
      SortRanks(bs[1..]);
      HeadPidLeast(bs);
      forall k | 0 <= k < |rest|
        ensures bs[0].pid < rest[k].pid
      {
        assert rest[k] in multiset(rest);
      }
      InsertRanked(bs[0], rest);
      InsertSumCounts(bs[0], rest);
    }
  }

  /** What `analyze_word` returns apart from its floating-point scores. */
  datatype Analysis = Analysis(sumSquares: nat, wins: nat, distribution: seq<Bucket>)

  /** `pattern_dist`: the non-empty buckets, sorted by `Reverse(count)`.
      Exactly the non-empty buckets appear, larger ones first, and their
      counts add up to the histogram's total. */
  function Distribution(hist: seq<nat>): (dist: seq<Bucket>)
    ensures forall k :: 0 <= k < |dist| ==>
              dist[k].pid < |hist| && dist[k].count > 0 && dist[k].count == hist[dist[k].pid]
    ensures forall p :: 0 <= p < |hist| && hist[p] > 0 ==> Bucket(p, hist[p]) in dist
    ensures Ranked(dist)
    ensures SumCounts(dist) == Sum(hist)
  {
    var buckets := NonZeroBuckets(hist, 0);
    NonZeroBucketsComplete(hist, 0);
    assert hist[0..] == hist;
    SortRanks(buckets);
    var dist := SortByKeyDesc(buckets, Count);
    forall k | 0 <= k < |dist|
      ensures dist[k] in buckets
    {
      assert dist[k] in multiset(dist);
    }
    forall p | 0 <= p < |hist| && hist[p] > 0
      ensures Bucket(p, hist[p]) in dist
    {
      assert Bucket(p, hist[p]) in multiset(buckets);
    }
    dist
  }

  /** `analyze_word`: nothing unless the word is five bytes long; otherwise
      the upper-cased word is scored as an opener and its non-empty
      buckets are listed, largest first. */
  function AnalyzeWord(words: seq<string>, word: string): (r: Option<Analysis>)
    requires ByteLength(word) == WordLength ==> Scorable(Upper(word), words)
    ensures r.None? <==> ByteLength(word) != WordLength
    ensures r.Some? ==>
      var a := r.value;
      var hist := Histogram(Upper(word), words);
      && a.wins == multiset(words)[Upper(word)]
      && a.sumSquares == SumSquares(hist)
      && |words| <= a.sumSquares <= |words| * |words|
      && (forall k :: 0 <= k < |a.distribution| ==>
            a.distribution[k].pid < NumPatterns && a.distribution[k].count > 0 &&
            a.distribution[k].count == hist[a.distribution[k].pid])
      && (forall p :: 0 <= p < NumPatterns && hist[p] > 0 ==> Bucket(p, hist[p]) in a.distribution)
      && Ranked(a.distribution)
      && SumCounts(a.distribution) == |words|
  {
    if ByteLength(word) != WordLength then None
    else
      var guess := Upper(word);
      var hist := Histogram(guess, words);
      BucketBounds(guess, words);
      WinsOfUpper(word, words);
      Some(Analysis(SumSquares(hist), hist[AllGreen], Distribution(hist)))
  }

  lemma WinsOfUpper(word: string, words: seq<string>)
    requires ByteLength(word) == WordLength && Scorable(Upper(word), words)
    ensures Histogram(Upper(word), words)[AllGreen] == multiset(words)[Upper(word)]
  {
    if |words| > 0 {
      UpperKeepsBytes(word);
      assert Computable(Upper(word), words[0]);
      AllGreenCountsGuess(Upper(word), words);
    }
  }

  /** The distinct characters of `w` (`HashSet<char>` of its chars). */
  function Chars(w: string): set<char>
  {
    set i | 0 <= i < |w| :: w[i]
  }

  predicate Distinct(w: string)
  {
    forall i, j :: 0 <= i < j < |w| ==> w[i] != w[j]
  }

  /** `unique_count`: at most the length, at least one for a non-empty word,
      and equal to the length exactly when no character repeats. */
  lemma {:induction false} UniqueCountBounds(w: string)
    ensures |Chars(w)| <= |w|
    ensures |w| > 0 ==> |Chars(w)| >= 1
    ensures |Chars(w)| == |w| <==> Distinct(w)
    decreases |w|
  {
    if |w| > 0 {
      var rest := w[1..];
      UniqueCountBounds(rest);
      assert Chars(w) == Chars(rest) + {w[0]} by {
        forall c | c in Chars(w)
          ensures c in Chars(rest) + {w[0]}
        {
          var i :| 0 <= i < |w| && w[i] == c;
          if i > 0 {
            assert rest[i - 1] == c;
          }
        }
        forall c | c in Chars(rest)
          ensures c in Chars(w)
        {
          var i :| 0 <= i < |rest| && rest[i] == c;
          assert w[i + 1] == c;
        }
      }
      if w[0] in Chars(rest) {
        assert Chars(w) == Chars(rest);
        var i :| 0 <= i < |rest| && rest[i] == w[0];
        assert w[0] == w[i + 1];
        assert !Distinct(w);
      } else {
        assert |Chars(w)| == |Chars(rest)| + 1;
        if Distinct(rest) {
          forall i, j | 0 <= i < j < |w|
            ensures w[i] != w[j]
          {
            if i == 0 {
              assert rest[j - 1] == w[j];
            } else {
              assert rest[i - 1] == w[i] && rest[j - 1] == w[j];
            }
          }
        } else {
          var i, j :| 0 <= i < j < |rest| && rest[i] == rest[j];
          assert w[i + 1] == w[j + 1];
        }
      }
    } else {
      assert Chars(w) == {};
    }
  }

  /** How many words of the list have `c` at position `i`: the count that
      `calculate_letter_frequencies` divides by the list size. */
  function Frequency(words: seq<string>, c: char, i: nat): (n: nat)
    ensures n <= |words|
    decreases |words|
  {
    if |words| == 0 then 0
    else (if i < |words[0]| && words[0][i] == c then 1 else 0) + Frequency(words[1..], c, i)
  }

  /** The letters at position `i` of the words long enough to have one,
      in list order. */
  function Column(words: seq<string>, i: nat): (col: seq<char>)
    ensures |col| <= |words|
    decreases |words|
  {
    if |words| == 0 then []
    else (if i < |words[0]| then [words[0][i]] else []) + Column(words[1..], i)
  }

  /** The frequency of `c` at position `i` is its multiplicity in that
      column, so the frequencies of all letters at `i` add up to the number
      of words longer than `i`: the words with no letter there count for
      none. */
  lemma {:induction false} FrequencyIsColumnCount(words: seq<string>, c: char, i: nat)
    ensures Frequency(words, c, i) == multiset(Column(words, i))[c]
    ensures |Column(words, i)| == |Filter(w => i < |w|, words)|
    decreases |words|
  {
    if |words| > 0 {
      FrequencyIsColumnCount(words[1..], c, i);
      assert words == [words[0]] + words[1..];
    }
  }

  /** `position_score` times the list size: the frequencies of the word's
      letters at their positions, from position `from` on. */
  function PositionScoreFrom(words: seq<string>, w: string, from: nat): (n: nat)
    requires from <= |w|
    ensures n <= (|w| - from) * |words|
    decreases |w| - from
  {
    if from == |w| then 0
    else Frequency(words, w[from], from) + PositionScoreFrom(words, w, from + 1)
  }

  function PositionScore(words: seq<string>, w: string): nat
  {
    PositionScoreFrom(words, w, 0)
  }

  /** Positions from `from` on where `x` has the same letter as `w`. */
  function Agreement(x: string, w: string, from: nat): (n: nat)
    requires from <= |w|
    ensures n <= |w| - from
    decreases |w| - from
  {
    if from == |w| then 0
    else (if from < |x| && x[from] == w[from] then 1 else 0) + Agreement(x, w, from + 1)
  }

  /** `Agreement` summed over the list. */
  function TotalAgreement(words: seq<string>, w: string, from: nat): nat
    requires from <= |w|
    decreases |words|
  {
    if |words| == 0 then 0 else Agreement(words[0], w, from) + TotalAgreement(words[1..], w, from)
  }

  /** The first word of the list adds its agreement with `w` to the score. */
  lemma {:induction false} PositionScoreSplit(words: seq<string>, w: string, from: nat)
    requires |words| > 0 && from <= |w|
    ensures PositionScoreFrom(words, w, from) ==
              Agreement(words[0], w, from) + PositionScoreFrom(words[1..], w, from)
    decreases |w| - from
  {
    if from < |w| {
      PositionScoreSplit(words, w, from + 1);
    }
  }

  /** Summing frequencies position by position is summing agreements word
      by word: the position score of `w` is the total number of (word,
      position) pairs of the list that hold `w`'s letter. */
  lemma {:induction false} PositionScoreIsAgreement(words: seq<string>, w: string, from: nat)
    requires from <= |w|
    ensures PositionScoreFrom(words, w, from) == TotalAgreement(words, w, from)
    decreases |words|
  {
    if |words| > 0 {
      PositionScoreSplit(words, w, from);
      PositionScoreIsAgreement(words[1..], w, from);
    }
  }

  /** One entry of `find_diverse_starters`. */
  datatype Diverse = Diverse(word: string, unique: nat, score: nat)

  /** `a` is ranked strictly above `b`: more distinct letters, or as many
      and a higher position score. */
  predicate Outranks(a: Diverse, b: Diverse)
  {
    a.unique > b.unique || (a.unique == b.unique && a.score > b.score)
  }

  function Scored(words: seq<string>): (es: seq<Diverse>)
    ensures |es| == |words|
    ensures forall k :: 0 <= k < |words| ==>
              es[k] == Diverse(words[k], |Chars(words[k])|, PositionScore(words, words[k]))
  {
    seq(|words|, k requires 0 <= k < |words| =>
      Diverse(words[k], |Chars(words[k])|, PositionScore(words, words[k])))
  }

  /** One more than every score in `es`. */
  function ScoreBound(es: seq<Diverse>): (b: nat)
    ensures b >= 1
    ensures forall k :: 0 <= k < |es| ==> es[k].score < b
    decreases |es|
  {
    if |es| == 0 then 1
    else
      var rest := ScoreBound(es[1..]);
      assert forall k :: 1 <= k < |es| ==> es[k].score == es[1..][k - 1].score;
      if es[0].score < rest then rest else es[0].score + 1
  }

  /** The two sort keys folded into one number. */
  function RankKey(bound: nat): Diverse -> nat
  {
    (e: Diverse) => e.unique * bound + e.score
  }

  lemma RankKeyOrder(a: Diverse, b: Diverse, bound: nat)
    requires a.score < bound && b.score < bound
    ensures RankKey(bound)(b) > RankKey(bound)(a) <==> Outranks(b, a)
  {
    if b.unique > a.unique {
      MulLess(a.unique, b.unique, bound);
    } else if b.unique < a.unique {
      MulLess(b.unique, a.unique, bound);
    }
  }

  /** Every word with its distinct-letter count and position score, sorted
      (stably) by distinct letters and then by score, both descending. */
  function RankDiverse(words: seq<string>): (r: seq<Diverse>)
    ensures |r| == |words|
    ensures multiset(r) == multiset(Scored(words))
    ensures forall i, j :: 0 <= i < j < |r| ==> !Outranks(r[j], r[i])
  {
    var es := Scored(words);
    var bound := ScoreBound(es);
    var r := SortByKeyDesc(es, RankKey(bound));
    forall i, j | 0 <= i < j < |r|
      ensures !Outranks(r[j], r[i])
    {
      assert r[i] in multiset(es) && r[j] in multiset(es) by {
        assert r[i] in multiset(r) && r[j] in multiset(r);
      }
      var a :| 0 <= a < |es| && es[a] == r[i];
      var b :| 0 <= b < |es| && es[b] == r[j];
      RankKeyOrder(r[i], r[j], bound);
    }
    r
  }

  /** Cutting a ranked list after `n` entries drops nothing that outranks
      a kept entry. */
  lemma PrefixKeepsTop(ranked: seq<Diverse>, n: nat)
    requires n <= |ranked|
    requires forall i, j :: 0 <= i < j < |ranked| ==> !Outranks(ranked[j], ranked[i])
    ensures forall e, k :: e in multiset(ranked) - multiset(ranked[..n]) && 0 <= k < n ==> !Outranks(e, ranked[k])
  {
    assert ranked == ranked[..n] + ranked[n..];
    assert multiset(ranked) - multiset(ranked[..n]) == multiset(ranked[n..]);
    forall e, k | e in multiset(ranked) - multiset(ranked[..n]) && 0 <= k < n
      ensures !Outranks(e, ranked[k])
    {
      var m :| 0 <= m < |ranked[n..]| && ranked[n..][m] == e;
      assert ranked[n + m] == e;
    }
  }

  /** The first `n` entries of a ranking of `pool`: drawn from the pool,
      still in order, and outranked by nothing the cut dropped. */
  lemma TopOfRanking(ranked: seq<Diverse>, n: nat, pool: multiset<Diverse>)
    requires n <= |ranked| && multiset(ranked) == pool
    requires forall i, j :: 0 <= i < j < |ranked| ==> !Outranks(ranked[j], ranked[i])
    ensures forall k :: 0 <= k < n ==> ranked[..n][k] in pool
    ensures forall i, j :: 0 <= i < j < n ==> !Outranks(ranked[..n][j], ranked[..n][i])
    ensures forall e, k :: e in pool - multiset(ranked[..n]) && 0 <= k < n ==> !Outranks(e, ranked[..n][k])
  {
    PrefixKeepsTop(ranked, n);
    forall k | 0 <= k < n
      ensures ranked[..n][k] in pool
    {
      assert ranked[..n][k] == ranked[k];
      assert ranked[k] in multiset(ranked);
    }
  }

  /** `find_diverse_starters(top_n)`: the first `top_n` of the ranking. No
      word left out outranks a word kept. */
  function DiverseStarters(words: seq<string>, topN: nat): (r: seq<Diverse>)
    ensures |r| == if topN < |words| then topN else |words|
    ensures forall k :: 0 <= k < |r| ==> r[k] in multiset(Scored(words))
    ensures forall i, j :: 0 <= i < j < |r| ==> !Outranks(r[j], r[i])
    ensures forall e, k :: e in multiset(Scored(words)) - multiset(r) && 0 <= k < |r| ==> !Outranks(e, r[k])
    ensures multiset(r) <= multiset(Scored(words))
    ensures r == RankDiverse(words)[..|r|]
  {
    var ranked := RankDiverse(words);
    var n := if topN < |words| then topN else |words|;
    TopOfRanking(ranked, n, multiset(Scored(words)));
    assert ranked == ranked[..n] + ranked[n..];
    ranked[..n]
  }
}

=== FILE: constraints.dfy ===
/** The constraint filter: `filter_words` prunes a word list by one guess,
    applying the green, yellow and black tests in turn as `retain` passes. */
module Constraints {
  import opened Types
  import opened Seqs
  import opened Words
  import Feedback

  /** Every feedback position carrying one of `marks` indexes a character
      of a string of length `n`. */
  predicate MarksWithin(fb: seq<char>, marks: set<char>, n: nat)
  {
    forall i :: 0 <= i < |fb| && fb[i] in marks ==> i < n
  }

  /** `get_positions` from position `i` on: each position whose feedback
      character is `mark`, paired with the guess letter there. */
  function PositionsFrom(fb: seq<char>, mark: char, word: string, i: nat): (r: seq<(nat, char)>)
    requires i <= |fb| && MarksWithin(fb, {mark}, |word|)
    ensures forall k :: 0 <= k < |r| ==> i <= r[k].0 < |fb| && fb[r[k].0] == mark && r[k].1 == word[r[k].0]
    ensures forall j :: i <= j < |fb| && fb[j] == mark ==> (j, word[j]) in r
    decreases |fb| - i
  {
    if i == |fb| then []
    else if fb[i] == mark then [(i, word[i])] + PositionsFrom(fb, mark, word, i + 1)
    else PositionsFrom(fb, mark, word, i + 1)
  }

  function GetPositions(fb: seq<char>, mark: char, word: string): (r: seq<(nat, char)>)
    requires MarksWithin(fb, {mark}, |word|)
    ensures forall k :: 0 <= k < |r| ==> r[k].0 < |fb| && fb[r[k].0] == mark && r[k].1 == word[r[k].0]
    ensures forall j :: 0 <= j < |fb| && fb[j] == mark ==> (j, word[j]) in r
  {
    PositionsFrom(fb, mark, word, 0)
  }

  // ---- The three rules, stated position by position ----

  /** Green rule: each green position of the guess holds the same letter in `w`. */
  predicate GreenRule(w: string, gs: Guess)
  {
    forall i :: 0 <= i < |gs.feedback| && gs.feedback[i] == 'G' ==>
      i < |gs.word| && i < |w| && w[i] == gs.word[i]
  }

  /** Yellow rule: each yellow letter occurs in `w`, but not at that position. */
  predicate YellowRule(w: string, gs: Guess)
  {
    forall i :: 0 <= i < |gs.feedback| && gs.feedback[i] == 'Y' ==>
      i < |gs.word| && gs.word[i] in w && i < |w| && w[i] != gs.word[i]
  }

  /** The guess shows letter `c` green or yellow somewhere. */
  predicate ShownPresent(gs: Guess, c: char)
  {
    exists k :: 0 <= k < |gs.feedback| && k < |gs.word| &&
      (gs.feedback[k] == 'G' || gs.feedback[k] == 'Y') && gs.word[k] == c
  }

  /** Black rule: a black letter that the guess does not also show green or
      yellow is absent from `w`; a black letter that it does show imposes
      nothing (presence-based, not a per-letter count). */
  predicate BlackRule(w: string, gs: Guess)
  {
    forall i :: (0 <= i < |gs.feedback| && gs.feedback[i] == 'B' && i < |gs.word| &&
      !ShownPresent(gs, gs.word[i])) ==> gs.word[i] !in w
  }

  /** `w` agrees with everything the guess reports. */
  predicate Consistent(w: string, gs: Guess)
  {
    GreenRule(w, gs) && YellowRule(w, gs) && BlackRule(w, gs)
  }

  // ---- The filters as written: a position list and an `all` test ----

  predicate MatchesGreens(w: string, greens: seq<(nat, char)>)
  {
    forall k :: 0 <= k < |greens| ==> greens[k].0 < |w| && w[greens[k].0] == greens[k].1
  }

  predicate MatchesYellows(w: string, yellows: seq<(nat, char)>)
  {
    forall k :: 0 <= k < |yellows| ==>
      yellows[k].1 in w && yellows[k].0 < |w| && w[yellows[k].0] != yellows[k].1
  }

  predicate MatchesBlacks(w: string, blacks: seq<(nat, char)>, shown: seq<char>)
  {
    forall k :: 0 <= k < |blacks| ==> blacks[k].1 in shown || blacks[k].1 !in w
  }

  /** The letters at green or yellow positions, from position `i` on
      (`green_yellow_letters`). */
  function ShownLettersFrom(gs: Guess, i: nat): (r: seq<char>)
    requires i <= |gs.feedback| && MarksWithin(gs.feedback, {'G', 'Y'}, |gs.word|)
    ensures forall c :: c in r <==> exists k :: (i <= k < |gs.feedback| &&
      (gs.feedback[k] == 'G' || gs.feedback[k] == 'Y') && gs.word[k] == c)
    decreases |gs.feedback| - i
  {
    if i == |gs.feedback| then []
    else if gs.feedback[i] == 'G' || gs.feedback[i] == 'Y' then [gs.word[i]] + ShownLettersFrom(gs, i + 1)
    else ShownLettersFrom(gs, i + 1)
  }

  function ShownLetters(gs: Guess): (r: seq<char>)
    requires MarksWithin(gs.feedback, {'G', 'Y'}, |gs.word|)
    ensures forall c :: c in r <==> ShownPresent(gs, c)
  {
    ShownLettersFrom(gs, 0)
  }

  /** `filter_by_green`: keeps the words that satisfy the green rule. */
  function FilterByGreen(words: seq<string>, gs: Guess): (r: seq<string>)
    requires MarksWithin(gs.feedback, {'G'}, |gs.word|)
    requires forall k :: 0 <= k < |words| ==> MarksWithin(gs.feedback, {'G'}, |words[k]|)
    ensures r == Filter(w => GreenRule(w, gs), words)
    ensures forall w :: w in r <==> w in words && GreenRule(w, gs)
  {
    var greens := GetPositions(gs.feedback, 'G', gs.word);
    forall k | 0 <= k < |words|
      ensures MatchesGreens(words[k], greens) == GreenRule(words[k], gs)
    {
      var w := words[k];
      if MatchesGreens(w, greens) {
        forall i | 0 <= i < |gs.feedback| && gs.feedback[i] == 'G'
          ensures i < |w| && w[i] == gs.word[i]
        {
          var n :| 0 <= n < |greens| && greens[n] == (i, gs.word[i]);
        }
      }
    }
    FilterCongruent(w => MatchesGreens(w, greens), w => GreenRule(w, gs), words);
    Filter(w => MatchesGreens(w, greens), words)
  }

  /** `filter_by_yellow`: keeps the words that satisfy the yellow rule. */
  function FilterByYellow(words: seq<string>, gs: Guess): (r: seq<string>)
    requires MarksWithin(gs.feedback, {'Y'}, |gs.word|)
    requires forall k :: 0 <= k < |words| ==> MarksWithin(gs.feedback, {'Y'}, |words[k]|)
    ensures r == Filter(w => YellowRule(w, gs), words)
    ensures forall w :: w in r <==> w in words && YellowRule(w, gs)
  {
    var yellows := GetPositions(gs.feedback, 'Y', gs.word);
    forall k | 0 <= k < |words|
      ensures MatchesYellows(words[k], yellows) == YellowRule(words[k], gs)
    {
      var w := words[k];
      if MatchesYellows(w, yellows) {
        forall i | 0 <= i < |gs.feedback| && gs.feedback[i] == 'Y'
          ensures gs.word[i] in w && i < |w| && w[i] != gs.word[i]
        {
          var n :| 0 <= n < |yellows| && yellows[n] == (i, gs.word[i]);
        }
      }
    }
    FilterCongruent(w => MatchesYellows(w, yellows), w => YellowRule(w, gs), words);
    Filter(w => MatchesYellows(w, yellows), words)
  }

  /** `filter_by_black`: keeps the words that satisfy the black rule. */
  function FilterByBlack(words: seq<string>, gs: Guess): (r: seq<string>)
    requires MarksWithin(gs.feedback, {'G', 'Y', 'B'}, |gs.word|)
    ensures r == Filter(w => BlackRule(w, gs), words)
    ensures forall w :: w in r <==> w in words && BlackRule(w, gs)
  {
    var blacks := GetPositions(gs.feedback, 'B', gs.word);
    var shown := ShownLetters(gs);
    forall k | 0 <= k < |words|
      ensures MatchesBlacks(words[k], blacks, shown) == BlackRule(words[k], gs)
    {
      var w := words[k];
      if MatchesBlacks(w, blacks, shown) {
        forall i | 0 <= i < |gs.feedback| && gs.feedback[i] == 'B' && i < |gs.word| &&
            !ShownPresent(gs, gs.word[i])
          ensures gs.word[i] !in w
        {
          var n :| 0 <= n < |blacks| && blacks[n] == (i, gs.word[i]);
        }
      }
    }
    FilterCongruent(w => MatchesBlacks(w, blacks, shown), w => BlackRule(w, gs), words);
    Filter(w => MatchesBlacks(w, blacks, shown), words)
  }

  /** The domain of `filter_words` in the model: the guess has a letter at
      every marked position (otherwise `get_positions` panics), and each
      word has one at every green or yellow position. A shorter word makes
      the source panic only when no earlier check of the same pass has
      rejected it already; the model leaves such words out. */
  predicate Filterable(words: seq<string>, gs: Guess)
  {
    && MarksWithin(gs.feedback, {'G', 'Y', 'B'}, |gs.word|)
    && forall k :: 0 <= k < |words| ==> MarksWithin(gs.feedback, {'G', 'Y'}, |words[k]|)
  }

  /** `filter_words`: green, then yellow, then black. The result is the
      order-preserving sub-list of the words consistent with the guess. */
  function FilterWords(words: seq<string>, gs: Guess): (r: seq<string>)
    requires Filterable(words, gs)
    ensures r == Filter(w => Consistent(w, gs), words)
    ensures IsSubsequence(r, words)
    ensures forall w :: w in r <==> w in words && Consistent(w, gs)
  {
    var afterGreen := FilterByGreen(words, gs);
    assert forall k :: 0 <= k < |afterGreen| ==> afterGreen[k] in words;
    var afterYellow := FilterByYellow(afterGreen, gs);
    var r := FilterByBlack(afterYellow, gs);
    ThreePasses(words, gs);
    r
  }

  /** Green, yellow and black passes in a row keep exactly the consistent words. */
  lemma {:induction false} ThreePasses(words: seq<string>, gs: Guess)
    ensures Filter(w => BlackRule(w, gs), Filter(w => YellowRule(w, gs), Filter(w => GreenRule(w, gs), words)))
         == Filter(w => Consistent(w, gs), words)
    decreases |words|
  {
    if |words| > 0 {
      ThreePasses(words[1..], gs);
      var w := words[0];
      var green := Filter(w => GreenRule(w, gs), words);
      if GreenRule(w, gs) {
        assert green == [w] + Filter(w => GreenRule(w, gs), words[1..]);
        assert green[1..] == Filter(w => GreenRule(w, gs), words[1..]);
        var yellow := Filter(w => YellowRule(w, gs), green);
        if YellowRule(w, gs) {
          assert yellow == [w] + Filter(w => YellowRule(w, gs), green[1..]);
          assert yellow[1..] == Filter(w => YellowRule(w, gs), green[1..]);
        }
      }
    }
  }

  /** Filtering twice by the same guess is filtering once. */
  lemma FilterWordsIdempotent(words: seq<string>, gs: Guess)
    requires Filterable(words, gs)
    ensures Filterable(FilterWords(words, gs), gs)
    ensures FilterWords(FilterWords(words, gs), gs) == FilterWords(words, gs)
  {
    FilterIdempotent(w => Consistent(w, gs), words);
  }

  /** The three passes commute: yellow before green gives the same list. */
  lemma GreenYellowCommute(words: seq<string>, gs: Guess)
    requires Filterable(words, gs)
    ensures FilterByYellow(FilterByGreen(words, gs), gs) == FilterByGreen(FilterByYellow(words, gs), gs)
  {
    GreenYellowSwap(words, gs);
  }

  lemma {:induction false} GreenYellowSwap(words: seq<string>, gs: Guess)
    ensures Filter(w => YellowRule(w, gs), Filter(w => GreenRule(w, gs), words))
         == Filter(w => GreenRule(w, gs), Filter(w => YellowRule(w, gs), words))
    decreases |words|
  {
    if |words| > 0 {
      GreenYellowSwap(words[1..], gs);
      var w := words[0];
      var green := Filter(w => GreenRule(w, gs), words);
      var yellow := Filter(w => YellowRule(w, gs), words);
      if GreenRule(w, gs) {
        assert green[1..] == Filter(w => GreenRule(w, gs), words[1..]);
      }
      if YellowRule(w, gs) {
        assert yellow[1..] == Filter(w => YellowRule(w, gs), words[1..]);
      }
    }
  }

  /** The word that produced a feedback is consistent with it. */
  lemma SolutionConsistent(g: string, s: string)
    requires |g| == WordLength && |s| == WordLength
    ensures Consistent(s, Guess(g, Feedback.CalculateFeedback(g, s)))
  {
    var fb := Feedback.CalculateFeedback(g, s);
    var gs := Guess(g, fb);
    forall i | 0 <= i < |fb| && fb[i] == 'B' && !ShownPresent(gs, g[i])
      ensures g[i] !in s
    {
      if g[i] in s {
        Feedback.BlackLetterCreditedElsewhere(g, s, i);
        assert false;
      }
    }
  }

  /** Soundness: filtering by the feedback that the solution itself
      produced never removes the solution. */
  lemma FilterWordsSound(words: seq<string>, g: string, s: string)
    requires |g| == WordLength && |s| == WordLength && s in words
    requires forall k :: 0 <= k < |words| ==> |words[k]| >= WordLength
    ensures Filterable(words, Guess(g, Feedback.CalculateFeedback(g, s)))
    ensures s in FilterWords(words, Guess(g, Feedback.CalculateFeedback(g, s)))
  {
    SolutionConsistent(g, s);
  }
}

=== FILE: feedback.dfy ===
/** `calculate_feedback`: the colour of each position of a guess against a
    solution. Greens are marked first; then, left to right, each remaining
    position takes the first solution letter that is still unused, which is
    how repeated letters are shared out. */
module Feedback {
  import opened Words
  import opened Seqs

  /** First pass, marks: 'G' where guess and solution agree, 'B' elsewhere. */
  function GreenMarks(g: string, s: string): (m: seq<char>)
    requires |g| == |s|
    ensures |m| == |g|
    ensures forall i :: 0 <= i < |g| ==> m[i] == (if g[i] == s[i] then 'G' else 'B')
  {
    seq(|g|, i requires 0 <= i < |g| => if g[i] == s[i] then 'G' else 'B')
  }

  /** First pass, used flags: the solution letters consumed by greens. */
  function GreenUsed(g: string, s: string): (u: seq<bool>)
    requires |g| == |s|
    ensures |u| == |s|
    ensures forall i :: 0 <= i < |s| ==> u[i] == (g[i] == s[i])
  {
    seq(|s|, i requires 0 <= i < |s| => g[i] == s[i])
  }

  /** The scan of the inner loop: the first position at or after `j` holding
      an unused copy of `c`, or `|s|` when there is none. */
  function FirstFree(c: char, s: string, used: seq<bool>, j: nat): (r: nat)
    requires |used| == |s| && j <= |s|
    ensures j <= r <= |s|
    ensures r < |s| ==> !used[r] && s[r] == c
    ensures forall k :: j <= k < r ==> used[k] || s[k] != c
    decreases |s| - j
  {
    if j == |s| then |s|
    else if !used[j] && s[j] == c then j
    else FirstFree(c, s, used, j + 1)
  }

  /** Second pass from position `i` on: a position still marked 'B' turns
      'Y' if its letter has an unused copy in the solution, consuming it. */
  function YellowPass(g: string, s: string, marks: seq<char>, used: seq<bool>, i: nat): (r: (seq<char>, seq<bool>))
    requires |g| == |s| == |marks| == |used| && i <= |g|
    ensures |r.0| == |g| && |r.1| == |s|
    decreases |g| - i
  {
    if i == |g| then (marks, used)
    else if marks[i] == 'B' then
      var j := FirstFree(g[i], s, used, 0);
      if j < |s| then YellowPass(g, s, marks[i := 'Y'], used[j := true], i + 1)
      else YellowPass(g, s, marks, used, i + 1)
    else YellowPass(g, s, marks, used, i + 1)
  }

  /** Positions credited to letter `c`: those marked 'G' or 'Y' whose guess
      letter is `c`. */
  function Credited(g: string, marks: seq<char>, c: char): set<nat>
  {
    set k: nat | k < |g| && k < |marks| && (marks[k] == 'G' || marks[k] == 'Y') && g[k] == c
  }

  /** Solution positions holding `c` that have been consumed. */
  function Consumed(s: string, used: seq<bool>, c: char): set<nat>
  {
    set j: nat | j < |s| && j < |used| && used[j] && s[j] == c
  }

  function Min(a: nat, b: nat): nat
  {
    if a <= b then a else b
  }

  /** The Wordle feedback of guess `g` against solution `s`. */
  function CalculateFeedback(g: string, s: string): (fb: seq<char>)
    requires |g| == WordLength && |s| == WordLength
    ensures |fb| == WordLength
    ensures forall i :: 0 <= i < |fb| ==> fb[i] == 'G' || fb[i] == 'Y' || fb[i] == 'B'
    // green exactly where the letters agree
    ensures forall i :: 0 <= i < |fb| ==> (fb[i] == 'G' <==> g[i] == s[i])
    // yellow only for a letter the solution has elsewhere
    ensures forall i :: 0 <= i < |fb| && fb[i] == 'Y' ==> g[i] != s[i] && g[i] in s
    // each letter is credited as often as both words share it
    ensures forall c :: |Credited(g, fb, c)| == Min(multiset(g)[c], multiset(s)[c])
    // yellows for a repeated letter go to its leftmost non-green copies
    ensures forall a, b :: 0 <= a < b < |fb| && fb[a] == 'B' && g[a] == g[b] ==> fb[b] != 'Y'
  {
    var r := YellowPass(g, s, GreenMarks(g, s), GreenUsed(g, s), 0);
    InitialInvariant(g, s);
    YellowPassInvariant(g, s, GreenMarks(g, s), GreenUsed(g, s), 0);
    FinalFacts(g, s, r.0, r.1);
    r.0
  }

  /** What holds of the marks and used flags after the second pass has
      handled positions `0..i`. */
  ghost predicate Invariant(g: string, s: string, marks: seq<char>, used: seq<bool>, i: nat)
  {
    && |g| == |s| == |marks| == |used| && i <= |g|
    && (forall k :: 0 <= k < |g| ==> marks[k] == 'G' || marks[k] == 'Y' || marks[k] == 'B')
    && (forall k :: 0 <= k < |g| ==> (marks[k] == 'G' <==> g[k] == s[k]))
    && (forall k :: i <= k < |g| ==> marks[k] != 'Y')
    && (forall k :: 0 <= k < |g| && marks[k] == 'Y' ==> g[k] in s)
    && (forall j :: 0 <= j < |s| && g[j] == s[j] ==> used[j])
    && (forall c :: |Credited(g, marks, c)| == |Consumed(s, used, c)|)
    && (forall k, j :: 0 <= k < i && marks[k] == 'B' && 0 <= j < |s| && s[j] == g[k] ==> used[j])
    && (forall a, b :: 0 <= a < b < i && marks[a] == 'B' && g[a] == g[b] ==> marks[b] != 'Y')
  }

  lemma InitialInvariant(g: string, s: string)
    requires |g| == |s|
    ensures Invariant(g, s, GreenMarks(g, s), GreenUsed(g, s), 0)
  {
    var m, u := GreenMarks(g, s), GreenUsed(g, s);
    forall c
      ensures |Credited(g, m, c)| == |Consumed(s, u, c)|
    {
      assert Credited(g, m, c) == Consumed(s, u, c);
    }
  }

  /** Turning the black position `i` yellow credits `i` for its letter only. */
  lemma CreditStep(g: string, marks: seq<char>, i: nat, c: char)
    requires |g| == |marks| && i < |g| && marks[i] == 'B'
    ensures i !in Credited(g, marks, c)
    ensures Credited(g, marks[i := 'Y'], c) ==
              if c == g[i] then Credited(g, marks, c) + {i} else Credited(g, marks, c)
  {
  }

  /** Consuming the free position `j` consumes it for its letter only. */
  lemma ConsumeStep(s: string, used: seq<bool>, j: nat, c: char)
    requires |s| == |used| && j < |s| && !used[j]
    ensures j !in Consumed(s, used, c)
    ensures Consumed(s, used[j := true], c) ==
              if c == s[j] then Consumed(s, used, c) + {j} else Consumed(s, used, c)
  {
  }

  /** Crediting position `i` and consuming solution position `j`, both
      holding the same letter, keeps credits and consumption in balance. */
  lemma BalanceStep(g: string, s: string, marks: seq<char>, used: seq<bool>, i: nat, j: nat,
                    m': seq<char>, u': seq<bool>)
    requires |g| == |s| == |marks| == |used| && i < |g| && j < |s|
    requires marks[i] == 'B' && !used[j] && s[j] == g[i]
    requires m' == marks[i := 'Y'] && u' == used[j := true]
    requires forall c :: |Credited(g, marks, c)| == |Consumed(s, used, c)|
    ensures forall c :: |Credited(g, m', c)| == |Consumed(s, u', c)|
  {
    forall c
      ensures |Credited(g, m', c)| == |Consumed(s, u', c)|
    {
      CreditStep(g, marks, i, c);
      ConsumeStep(s, used, j, c);
    }
  }

  /** A step that turns position `i` yellow keeps the invariant. */
  lemma StepYellow(g: string, s: string, marks: seq<char>, used: seq<bool>, i: nat, j: nat)
    requires Invariant(g, s, marks, used, i) && i < |g|
    requires marks[i] == 'B' && j == FirstFree(g[i], s, used, 0) && j < |s|
    ensures Invariant(g, s, marks[i := 'Y'], used[j := true], i + 1)
  {
    var m', u' := marks[i := 'Y'], used[j := true];
    assert s[j] == g[i] && !used[j];
    BalanceStep(g, s, marks, used, i, j, m', u');
    forall a, b | 0 <= a < b < i + 1 && m'[a] == 'B' && g[a] == g[b]
      ensures m'[b] != 'Y'
    {
      if b == i {
        assert false;
      }
    }
  }

  /** A step that leaves position `i` as it is keeps the invariant. */
  lemma StepUnchanged(g: string, s: string, marks: seq<char>, used: seq<bool>, i: nat)
    requires Invariant(g, s, marks, used, i) && i < |g|
    requires marks[i] == 'B' ==> FirstFree(g[i], s, used, 0) == |s|
    ensures Invariant(g, s, marks, used, i + 1)
  {
    if marks[i] == 'B' {
      assert forall j' :: 0 <= j' < |s| ==> used[j'] || s[j'] != g[i];
    }
  }

  lemma {:induction false} YellowPassInvariant(g: string, s: string, marks: seq<char>, used: seq<bool>, i: nat)
    requires Invariant(g, s, marks, used, i)
    ensures var r := YellowPass(g, s, marks, used, i); Invariant(g, s, r.0, r.1, |g|)
    decreases |g| - i
  {
    if i < |g| {
      var j := FirstFree(g[i], s, used, 0);
      if marks[i] == 'B' && j < |s| {
        StepYellow(g, s, marks, used, i, j);
        YellowPassInvariant(g, s, marks[i := 'Y'], used[j := true], i + 1);
      } else {
        StepUnchanged(g, s, marks, used, i);
        YellowPassInvariant(g, s, marks, used, i + 1);
      }
    }
  }

  lemma SubsetCard<T>(a: set<T>, b: set<T>)
    requires a <= b
    ensures |a| <= |b|
  {
    assert b == a + (b - a);
  }

  /** At the end of the second pass each letter is credited
      `min(count in guess, count in solution)` times. */
  lemma FinalFacts(g: string, s: string, marks: seq<char>, used: seq<bool>)
    requires Invariant(g, s, marks, used, |g|)
    ensures forall c :: |Credited(g, marks, c)| == Min(multiset(g)[c], multiset(s)[c])
  {
    forall c
      ensures |Credited(g, marks, c)| == Min(multiset(g)[c], multiset(s)[c])
    {
      PositionsCount(g, c);
      PositionsCount(s, c);
      SubsetCard(Credited(g, marks, c), Positions(g, c));
      SubsetCard(Consumed(s, used, c), Positions(s, c));
      if exists k :: 0 <= k < |g| && marks[k] == 'B' && g[k] == c {
        assert Consumed(s, used, c) == Positions(s, c);
      } else {
        assert Credited(g, marks, c) == Positions(g, c);
      }
    }
  }

  /** A black position whose letter the solution does contain has had every
      copy of that letter credited elsewhere: some other position of the
      guess is green or yellow with the same letter. */
  lemma BlackLetterCreditedElsewhere(g: string, s: string, i: nat)
    requires |g| == WordLength && |s| == WordLength && i < WordLength
    requires CalculateFeedback(g, s)[i] == 'B' && g[i] in s
    ensures exists k :: (0 <= k < WordLength && k != i &&
      (CalculateFeedback(g, s)[k] == 'G' || CalculateFeedback(g, s)[k] == 'Y') && g[k] == g[i])
  {
    var fb, c := CalculateFeedback(g, s), g[i];
    PositionsCount(g, c);
    PositionsCount(s, c);
    assert multiset(s)[c] > 0;
    assert Credited(g, fb, c) <= Positions(g, c) - {i};
    SubsetCard(Credited(g, fb, c), Positions(g, c) - {i});
    assert |Credited(g, fb, c)| > 0;
    var k :| k in Credited(g, fb, c);
  }

  /** The source's two loops, with the inner scan that stops at the first
      unused match, compute the same marks. */
  method CalculateFeedbackLoops(g: string, s: string) returns (fb: seq<char>)
    requires |g| == WordLength && |s| == WordLength
    ensures fb == CalculateFeedback(g, s)
  {
    var feedback := seq(5, _ => 'B');
    var used := seq(5, _ => false);
    for i := 0 to 5
      invariant |feedback| == 5 && |used| == 5
      invariant forall k :: 0 <= k < i ==> feedback[k] == GreenMarks(g, s)[k] && used[k] == GreenUsed(g, s)[k]
      invariant forall k :: i <= k < 5 ==> feedback[k] == 'B' && !used[k]
    {
      if g[i] == s[i] {
        feedback := feedback[i := 'G'];
        used := used[i := true];
      }
    }
    assert feedback == GreenMarks(g, s) && used == GreenUsed(g, s);
    ghost var target := YellowPass(g, s, feedback, used, 0);
    for i := 0 to 5
      invariant |feedback| == 5 && |used| == 5
      invariant YellowPass(g, s, feedback, used, i) == target
    {
      if feedback[i] == 'B' {
        ghost var free := FirstFree(g[i], s, used, 0);
        var j := 0;
        while j < 5
          invariant 0 <= j <= 5
          invariant forall k :: 0 <= k < j ==> used[k] || s[k] != g[i]
          invariant j <= free
        {
          if !used[j] && g[i] == s[j] {
            assert free == j;
            feedback := feedback[i := 'Y'];
            used := used[j := true];
            break;
          }
          j := j + 1;
        }
      }
    }
    fb := feedback;
  }
}

=== FILE: oracles.dfy ===
/** The fixed examples that the repository's own tests pin down, restated
    as facts about the model. */
module Oracles {
  import opened Types
  import opened Constraints
  import opened Words
  import opened Seqs
  import Feedback

  lemma FeedbackAllGreen()
    ensures Feedback.CalculateFeedback("CRANE", "CRANE") == "GGGGG"
  {
  }

  lemma FeedbackMixed()
    ensures Feedback.CalculateFeedback("TRACE", "CRANE") == "BGGYG"
  {
  }

  /** The second L of LLAMA takes the last L of LEVEL; the first is green. */
  lemma FeedbackDuplicateLetters()
    ensures Feedback.CalculateFeedback("LLAMA", "LEVEL") == "GYBBB"
  {
  }

  lemma FeedbackAllYellow()
    ensures Feedback.CalculateFeedback("EABCD", "ABCDE") == "YYYYY"
  {
  }

  // ---- Guesses of five positions, one position at a time ----

  /** The rules at one position. */
  predicate GreenAt(w: string, gs: Guess, i: nat)
    requires i < |gs.feedback| && i < |gs.word|
  {
    gs.feedback[i] == 'G' ==> i < |w| && w[i] == gs.word[i]
  }

  predicate YellowAt(w: string, gs: Guess, i: nat)
    requires i < |gs.feedback| && i < |gs.word|
  {
    gs.feedback[i] == 'Y' ==> gs.word[i] in w && i < |w| && w[i] != gs.word[i]
  }

  predicate ShownAt(gs: Guess, i: nat, c: char)
    requires i < |gs.feedback| && i < |gs.word|
  {
    (gs.feedback[i] == 'G' || gs.feedback[i] == 'Y') && gs.word[i] == c
  }

  lemma ShownUnrolled(gs: Guess, c: char)
    requires |gs.feedback| == 5 && |gs.word| == 5
    ensures ShownPresent(gs, c) <==>
      ShownAt(gs, 0, c) || ShownAt(gs, 1, c) || ShownAt(gs, 2, c) || ShownAt(gs, 3, c) || ShownAt(gs, 4, c)
  {
    if ShownPresent(gs, c) {
      var k :| 0 <= k < |gs.feedback| && k < |gs.word| &&
        (gs.feedback[k] == 'G' || gs.feedback[k] == 'Y') && gs.word[k] == c;
      assert ShownAt(gs, k, c);
    }
  }

  predicate BlackAt(w: string, gs: Guess, i: nat)
    requires i < |gs.feedback| && i < |gs.word|
  {
    gs.feedback[i] == 'B' && !ShownPresent(gs, gs.word[i]) ==> gs.word[i] !in w
  }

  lemma RulesUnrolled(w: string, gs: Guess)
    requires |gs.feedback| == 5 && |gs.word| == 5
    ensures GreenRule(w, gs) <==>
      GreenAt(w, gs, 0) && GreenAt(w, gs, 1) && GreenAt(w, gs, 2) && GreenAt(w, gs, 3) && GreenAt(w, gs, 4)
    ensures YellowRule(w, gs) <==>
      YellowAt(w, gs, 0) && YellowAt(w, gs, 1) && YellowAt(w, gs, 2) && YellowAt(w, gs, 3) && YellowAt(w, gs, 4)
    ensures BlackRule(w, gs) <==>
      BlackAt(w, gs, 0) && BlackAt(w, gs, 1) && BlackAt(w, gs, 2) && BlackAt(w, gs, 3) && BlackAt(w, gs, 4)
  {
  }

  // ---- What each tested feedback asks of a five-letter word ----

  /** CRANE scored B G G Y B: R and A in place, an N elsewhere, no C or E. */
  lemma RealisticRule(w: string)
    requires |w| == 5
    ensures Consistent(w, Guess("CRANE", "BGGYB")) <==>
              w[1] == 'R' && w[2] == 'A' && 'N' in w && w[3] != 'N' && 'C' !in w && 'E' !in w
  {
    var gs := Guess("CRANE", "BGGYB");
    RulesUnrolled(w, gs);
    ShownUnrolled(gs, 'C');
    ShownUnrolled(gs, 'E');
  }

  /** LIGHT scored B G G G G: -IGHT in place and no L. */
  lemma MixedRule(w: string)
    requires |w| == 5
    ensures Consistent(w, Guess("LIGHT", "BGGGG")) <==>
              w[1] == 'I' && w[2] == 'G' && w[3] == 'H' && w[4] == 'T' && 'L' !in w
  {
    var gs := Guess("LIGHT", "BGGGG");
    RulesUnrolled(w, gs);
    ShownUnrolled(gs, 'L');
  }

  /** CRANE scored B Y B B B: an R away from position 1, none of C, A, N, E. */
  lemma IntegrationRule(w: string)
    requires |w| == 5
    ensures Consistent(w, Guess("CRANE", "BYBBB")) <==>
              'R' in w && w[1] != 'R' && 'C' !in w && 'A' !in w && 'N' !in w && 'E' !in w
  {
    var gs := Guess("CRANE", "BYBBB");
    RulesUnrolled(w, gs);
    ShownUnrolled(gs, 'C');
    ShownUnrolled(gs, 'A');
    ShownUnrolled(gs, 'N');
    ShownUnrolled(gs, 'E');
  }

  /** An all-black CRANE: none of C, R, A, N, E (the black test alone). */
  lemma AllBlackRule(w: string)
    ensures BlackRule(w, Guess("CRANE", "BBBBB")) <==>
              'C' !in w && 'R' !in w && 'A' !in w && 'N' !in w && 'E' !in w
  {
    var gs := Guess("CRANE", "BBBBB");
    RulesUnrolled(w, gs);
    ShownUnrolled(gs, 'C');
    ShownUnrolled(gs, 'R');
    ShownUnrolled(gs, 'A');
    ShownUnrolled(gs, 'N');
    ShownUnrolled(gs, 'E');
  }

  /** CRANE with only C green: the green test alone asks for a C in front. */
  lemma GreenOnlyRule(w: string)
    requires |w| == 5
    ensures GreenRule(w, Guess("CRANE", "GBBBB")) <==> w[0] == 'C'
  {
    RulesUnrolled(w, Guess("CRANE", "GBBBB"));
  }

  /** CRANE with only R yellow: the yellow test alone asks for an R away
      from position 1. */
  lemma YellowOnlyRule(w: string)
    requires |w| == 5
    ensures YellowRule(w, Guess("CRANE", "BYBBB")) <==> 'R' in w && w[1] != 'R'
  {
    RulesUnrolled(w, Guess("CRANE", "BYBBB"));
  }

  /** CRANE scored G B B B B: a C in front and none of R, A, N, E. The C
      itself is shown, so the black test does not exclude it. */
  lemma GreenLettersRule(w: string)
    requires |w| == 5
    ensures Consistent(w, Guess("CRANE", "GBBBB")) <==>
              w[0] == 'C' && 'R' !in w && 'A' !in w && 'N' !in w && 'E' !in w
  {
    var gs := Guess("CRANE", "GBBBB");
    RulesUnrolled(w, gs);
    ShownUnrolled(gs, 'R');
    ShownUnrolled(gs, 'A');
    ShownUnrolled(gs, 'N');
    ShownUnrolled(gs, 'E');
  }

  /** `c` does not occur in the five-letter word `w`. */
  lemma Absent(w: string, c: char)
    requires |w| == 5 && w[0] != c && w[1] != c && w[2] != c && w[3] != c && w[4] != c
    ensures c !in w
  {
  }

  lemma FiveLetterFilterable(words: seq<string>, gs: Guess)
    requires |gs.word| == 5 && |gs.feedback| == 5
    requires forall k :: 0 <= k < |words| ==> |words[k]| == 5
    ensures Filterable(words, gs)
  {
  }

  // ---- The tests' verdicts ----

  lemma RealisticVerdicts()
    ensures var gs := Guess("CRANE", "BGGYB");
            && Consistent("BRAIN", gs) && Consistent("GRAIN", gs) && Consistent("TRAIN", gs)
            && !Consistent("CRANE", gs) && !Consistent("STAIN", gs) && !Consistent("PLAIN", gs)
            && !Consistent("CHAIN", gs)
  {
    var brain: string, grain: string, train: string := "BRAIN", "GRAIN", "TRAIN";
    RealisticRule(brain); Absent(brain, 'C'); Absent(brain, 'E'); assert brain[4] == 'N';
    RealisticRule(grain); Absent(grain, 'C'); Absent(grain, 'E'); assert grain[4] == 'N';
    RealisticRule(train); Absent(train, 'C'); Absent(train, 'E'); assert train[4] == 'N';
    var crane: string, stain: string, plain: string, chain: string := "CRANE", "STAIN", "PLAIN", "CHAIN";
    RealisticRule(crane); assert crane[0] == 'C';
    RealisticRule(stain); assert stain[1] != 'R';
    RealisticRule(plain); assert plain[1] != 'R';
    RealisticRule(chain); assert chain[1] != 'R';
  }

  /** CRANE scored B G G Y B keeps BRAIN, GRAIN and TRAIN and drops the rest. */
  lemma FilterRealistic()
    ensures var words: seq<string> := ["CRANE", "BRAIN", "GRAIN", "TRAIN", "STAIN", "PLAIN", "CHAIN"];
            var gs := Guess("CRANE", "BGGYB");
            && Filterable(words, gs)
            && var r := FilterWords(words, gs);
            && "BRAIN" in r && "GRAIN" in r && "TRAIN" in r
            && "CRANE" !in r && "STAIN" !in r && "PLAIN" !in r && "CHAIN" !in r
  {
    var words: seq<string> := ["CRANE", "BRAIN", "GRAIN", "TRAIN", "STAIN", "PLAIN", "CHAIN"];
    var gs := Guess("CRANE", "BGGYB");
    FiveLetterFilterable(words, gs);
    RealisticVerdicts();
    assert words[1] == "BRAIN" && words[2] == "GRAIN" && words[3] == "TRAIN";
  }

  lemma MixedVerdicts()
    ensures var gs := Guess("LIGHT", "BGGGG");
            && Consistent("SIGHT", gs) && Consistent("MIGHT", gs) && Consistent("NIGHT", gs)
            && Consistent("FIGHT", gs) && Consistent("TIGHT", gs) && !Consistent("LIGHT", gs)
  {
    var sight: string, might: string, night: string := "SIGHT", "MIGHT", "NIGHT";
    MixedRule(sight); Absent(sight, 'L');
    MixedRule(might); Absent(might, 'L');
    MixedRule(night); Absent(night, 'L');
    var fight: string, tight: string, light: string := "FIGHT", "TIGHT", "LIGHT";
    MixedRule(fight); Absent(fight, 'L');
    MixedRule(tight); Absent(tight, 'L');
    MixedRule(light); assert light[0] == 'L';
  }

  /** LIGHT scored B G G G G keeps the other -IGHT words and drops LIGHT. */
  lemma FilterMixed()
    ensures var words: seq<string> := ["LIGHT", "SIGHT", "MIGHT", "NIGHT", "FIGHT", "TIGHT"];
            var gs := Guess("LIGHT", "BGGGG");
            && Filterable(words, gs)
            && var r := FilterWords(words, gs);
            && "SIGHT" in r && "MIGHT" in r && "NIGHT" in r && "FIGHT" in r && "TIGHT" in r
            && "LIGHT" !in r
  {
    var words: seq<string> := ["LIGHT", "SIGHT", "MIGHT", "NIGHT", "FIGHT", "TIGHT"];
    var gs := Guess("LIGHT", "BGGGG");
    FiveLetterFilterable(words, gs);
    MixedVerdicts();
    assert words[1] == "SIGHT" && words[2] == "MIGHT" && words[3] == "NIGHT";
    assert words[4] == "FIGHT" && words[5] == "TIGHT";
  }

  lemma IntegrationKept()
    ensures var gs := Guess("CRANE", "BYBBB");
            Consistent("SPORT", gs) && Consistent("SHIRT", gs) && Consistent("QUIRK", gs)
  {
    var sport: string, shirt: string, quirk: string := "SPORT", "SHIRT", "QUIRK";
    IntegrationRule(sport); assert sport[3] == 'R';
    Absent(sport, 'C'); Absent(sport, 'A'); Absent(sport, 'N'); Absent(sport, 'E');
    IntegrationRule(shirt); assert shirt[3] == 'R';
    Absent(shirt, 'C'); Absent(shirt, 'A'); Absent(shirt, 'N'); Absent(shirt, 'E');
    IntegrationRule(quirk); assert quirk[3] == 'R';
    Absent(quirk, 'C'); Absent(quirk, 'A'); Absent(quirk, 'N'); Absent(quirk, 'E');
  }

  lemma IntegrationDropped()
    ensures var gs := Guess("CRANE", "BYBBB");
            && !Consistent("FROST", gs) && !Consistent("TRUCK", gs) && !Consistent("GROUT", gs)
            && !Consistent("BROTH", gs) && !Consistent("DRUMS", gs)
  {
    var frost: string, truck: string, grout: string, broth: string, drums: string :=
      "FROST", "TRUCK", "GROUT", "BROTH", "DRUMS";
    IntegrationRule(frost); assert frost[1] == 'R';
    IntegrationRule(truck); assert truck[1] == 'R';
    IntegrationRule(grout); assert grout[1] == 'R';
    IntegrationRule(broth); assert broth[1] == 'R';
    IntegrationRule(drums); assert drums[1] == 'R';
  }

  /** CRANE scored B Y B B B keeps SPORT, SHIRT and QUIRK and drops the
      words with R at position 1. */
  lemma FilterIntegration()
    ensures var words: seq<string> := ["FROST", "SPORT", "TRUCK", "GROUT", "BROTH", "DRUMS", "SHIRT", "QUIRK"];
            var gs := Guess("CRANE", "BYBBB");
            && Filterable(words, gs)
            && var r := FilterWords(words, gs);
            && "SPORT" in r && "SHIRT" in r && "QUIRK" in r
            && "FROST" !in r && "TRUCK" !in r && "GROUT" !in r && "BROTH" !in r && "DRUMS" !in r
  {
    var words: seq<string> := ["FROST", "SPORT", "TRUCK", "GROUT", "BROTH", "DRUMS", "SHIRT", "QUIRK"];
    var gs := Guess("CRANE", "BYBBB");
    FiveLetterFilterable(words, gs);
    IntegrationKept();
    IntegrationDropped();
    assert words[1] == "SPORT" && words[6] == "SHIRT" && words[7] == "QUIRK";
  }

  lemma BlackOnlyVerdicts()
    ensures var gs := Guess("CRANE", "BBBBB");
            && BlackRule("LIGHT", gs) && BlackRule("DUMPS", gs) && BlackRule("GLYPH", gs)
            && !BlackRule("CRANE", gs) && !BlackRule("STAIR", gs) && !BlackRule("POUND", gs)
  {
    var light: string, dumps: string, glyph: string := "LIGHT", "DUMPS", "GLYPH";
    AllBlackRule(light);
    Absent(light, 'C'); Absent(light, 'R'); Absent(light, 'A'); Absent(light, 'N'); Absent(light, 'E');
    AllBlackRule(dumps);
    Absent(dumps, 'C'); Absent(dumps, 'R'); Absent(dumps, 'A'); Absent(dumps, 'N'); Absent(dumps, 'E');
    AllBlackRule(glyph);
    Absent(glyph, 'C'); Absent(glyph, 'R'); Absent(glyph, 'A'); Absent(glyph, 'N'); Absent(glyph, 'E');
    var crane: string, stair: string, pound: string := "CRANE", "STAIR", "POUND";
    AllBlackRule(crane); assert crane[0] == 'C';
    AllBlackRule(stair); assert stair[2] == 'A';
    AllBlackRule(pound); assert pound[3] == 'N';
  }

  /** The black filter alone with an all-black CRANE keeps exactly the
      words free of C, R, A, N and E. */
  lemma FilterBlackOnly()
    ensures var words: seq<string> := ["CRANE", "STAIR", "POUND", "LIGHT", "DUMPS", "GLYPH"];
            var gs := Guess("CRANE", "BBBBB");
            && MarksWithin(gs.feedback, {'G', 'Y', 'B'}, |gs.word|)
            && var r := FilterByBlack(words, gs);
            && "LIGHT" in r && "DUMPS" in r && "GLYPH" in r
            && "CRANE" !in r && "STAIR" !in r && "POUND" !in r
  {
    var words: seq<string> := ["CRANE", "STAIR", "POUND", "LIGHT", "DUMPS", "GLYPH"];
    var gs := Guess("CRANE", "BBBBB");
    FiveLetterFilterable(words, gs);
    BlackOnlyVerdicts();
    assert words[3] == "LIGHT" && words[4] == "DUMPS" && words[5] == "GLYPH";
  }

  lemma BlackSimpleVerdicts()
    ensures var gs := Guess("CRANE", "BBBBB");
            && BlackRule("WIMPY", gs) && BlackRule("DUMPS", gs) && BlackRule("GLYPH", gs)
            && !BlackRule("WORLD", gs) && !BlackRule("WORTH", gs) && !BlackRule("POUND", gs)
  {
    var wimpy: string, dumps: string, glyph: string := "WIMPY", "DUMPS", "GLYPH";
    AllBlackRule(wimpy);
    Absent(wimpy, 'C'); Absent(wimpy, 'R'); Absent(wimpy, 'A'); Absent(wimpy, 'N'); Absent(wimpy, 'E');
    AllBlackRule(dumps);
    Absent(dumps, 'C'); Absent(dumps, 'R'); Absent(dumps, 'A'); Absent(dumps, 'N'); Absent(dumps, 'E');
    AllBlackRule(glyph);
    Absent(glyph, 'C'); Absent(glyph, 'R'); Absent(glyph, 'A'); Absent(glyph, 'N'); Absent(glyph, 'E');
    var world: string, worth: string, pound: string := "WORLD", "WORTH", "POUND";
    AllBlackRule(world); assert world[2] == 'R';
    AllBlackRule(worth); assert worth[2] == 'R';
    AllBlackRule(pound); assert pound[3] == 'N';
  }

  /** The second all-black list: the words with R or N go, the rest stay. */
  lemma FilterBlackSimple()
    ensures var words: seq<string> := ["WORLD", "WORTH", "WIMPY", "POUND", "DUMPS", "GLYPH"];
            var gs := Guess("CRANE", "BBBBB");
            && MarksWithin(gs.feedback, {'G', 'Y', 'B'}, |gs.word|)
            && var r := FilterByBlack(words, gs);
            && "WIMPY" in r && "DUMPS" in r && "GLYPH" in r
            && "WORLD" !in r && "WORTH" !in r && "POUND" !in r
  {
    var words: seq<string> := ["WORLD", "WORTH", "WIMPY", "POUND", "DUMPS", "GLYPH"];
    var gs := Guess("CRANE", "BBBBB");
    FiveLetterFilterable(words, gs);
    BlackSimpleVerdicts();
    assert words[2] == "WIMPY" && words[4] == "DUMPS" && words[5] == "GLYPH";
  }

  /** The green filter alone with only C green keeps the words that start
      with C. */
  lemma FilterGreenOnly()
    ensures var words: seq<string> := ["CRANE", "CRATE", "BRAKE", "DRAKE"];
            var gs := Guess("CRANE", "GBBBB");
            && MarksWithin(gs.feedback, {'G'}, |gs.word|)
            && (forall k :: 0 <= k < |words| ==> MarksWithin(gs.feedback, {'G'}, |words[k]|))
            && var r := FilterByGreen(words, gs);
            && "CRANE" in r && "CRATE" in r && "BRAKE" !in r && "DRAKE" !in r
  {
    var words: seq<string> := ["CRANE", "CRATE", "BRAKE", "DRAKE"];
    var gs := Guess("CRANE", "GBBBB");
    FiveLetterFilterable(words, gs);
    var crane: string, crate: string, brake: string, drake: string := "CRANE", "CRATE", "BRAKE", "DRAKE";
    GreenOnlyRule(crane); GreenOnlyRule(crate); GreenOnlyRule(brake); GreenOnlyRule(drake);
    assert words[0] == crane && words[1] == crate;
  }

  /** The yellow filter alone with R yellow at position 1 keeps RAVEN and
      SOBER and drops the words with R there or without R. */
  lemma FilterYellowOnly()
    ensures var words: seq<string> := ["CRANE", "BRAKE", "RAVEN", "SOBER", "THINK"];
            var gs := Guess("CRANE", "BYBBB");
            && MarksWithin(gs.feedback, {'Y'}, |gs.word|)
            && (forall k :: 0 <= k < |words| ==> MarksWithin(gs.feedback, {'Y'}, |words[k]|))
            && var r := FilterByYellow(words, gs);
            && "RAVEN" in r && "SOBER" in r && "CRANE" !in r && "BRAKE" !in r && "THINK" !in r
  {
    var words: seq<string> := ["CRANE", "BRAKE", "RAVEN", "SOBER", "THINK"];
    var gs := Guess("CRANE", "BYBBB");
    FiveLetterFilterable(words, gs);
    var raven: string, sober: string := "RAVEN", "SOBER";
    YellowOnlyRule(raven); assert raven[0] == 'R';
    YellowOnlyRule(sober); assert sober[4] == 'R';
    var crane: string, brake: string, think: string := "CRANE", "BRAKE", "THINK";
    YellowOnlyRule(crane); assert crane[1] == 'R';
    YellowOnlyRule(brake); assert brake[1] == 'R';
    YellowOnlyRule(think); Absent(think, 'R');
    assert words[2] == raven && words[3] == sober;
  }

  /** All three tests together with only C green: every word of the list
      holds an R, so none survives. */
  lemma FilterGreenLetters()
    ensures var words: seq<string> := ["CRANE", "CRATE", "BRAKE", "DRAKE"];
            var gs := Guess("CRANE", "GBBBB");
            && Filterable(words, gs)
            && var r := FilterWords(words, gs);
            && "CRANE" !in r && "CRATE" !in r && "BRAKE" !in r && "DRAKE" !in r
  {
    var words: seq<string> := ["CRANE", "CRATE", "BRAKE", "DRAKE"];
    var gs := Guess("CRANE", "GBBBB");
    FiveLetterFilterable(words, gs);
    var crane: string, crate: string, brake: string, drake: string := "CRANE", "CRATE", "BRAKE", "DRAKE";
    GreenLettersRule(crane); assert crane[1] == 'R';
    GreenLettersRule(crate); assert crate[1] == 'R';
    GreenLettersRule(brake); assert brake[1] == 'R';
    GreenLettersRule(drake); assert drake[1] == 'R';
  }
}

=== FILE: parse.dfy ===
/** Reading a `WORD FEEDBACK` line. `core.rs` upper-cases both fields
    before checking them; the copy in `main.rs` checks them as typed. */
module Parse {
  import opened Types
  import opened Words

  /** `char::is_whitespace`: the Unicode White_Space characters. */
  predicate IsWhitespace(c: char)
  {
    || ('\U{0009}' <= c <= '\U{000D}') || c == ' ' || c == '\U{0085}' || c == '\U{00A0}'
    || c == '\U{1680}' || ('\U{2000}' <= c <= '\U{200A}') || c == '\U{2028}' || c == '\U{2029}'
    || c == '\U{202F}' || c == '\U{205F}' || c == '\U{3000}'
  }

  predicate NoWhitespace(s: string)
  {
    forall k :: 0 <= k < |s| ==> !IsWhitespace(s[k])
  }

  /** Length of the run of non-whitespace characters that starts `s`. */
  function RunLength(s: string): (n: nat)
    ensures n <= |s|
    ensures forall k :: 0 <= k < n ==> !IsWhitespace(s[k])
    ensures n == |s| || IsWhitespace(s[n])
    decreases |s|
  {
    if |s| == 0 || IsWhitespace(s[0]) then 0 else 1 + RunLength(s[1..])
  }

  /** `str::split_whitespace`: the maximal runs of non-whitespace characters. */
  function SplitWhitespace(s: string): (tokens: seq<string>)
    ensures forall k :: 0 <= k < |tokens| ==> |tokens[k]| > 0 && NoWhitespace(tokens[k])
    decreases |s|
  {
    if |s| == 0 then []
    else if IsWhitespace(s[0]) then SplitWhitespace(s[1..])
    else
      var n := RunLength(s);
      [s[..n]] + SplitWhitespace(s[n..])
  }

  /** All characters of `s` that are not whitespace, in order. */
  function DropWhitespace(s: string): string
    decreases |s|
  {
    if |s| == 0 then [] else (if IsWhitespace(s[0]) then [] else [s[0]]) + DropWhitespace(s[1..])
  }

  function Concat(ts: seq<string>): string
    decreases |ts|
  {
    if |ts| == 0 then [] else ts[0] + Concat(ts[1..])
  }

  lemma {:induction false} DropWhitespaceAppend(a: string, b: string)
    ensures DropWhitespace(a + b) == DropWhitespace(a) + DropWhitespace(b)
    decreases |a|
  {
    if |a| > 0 {
      assert (a + b)[1..] == a[1..] + b;
      DropWhitespaceAppend(a[1..], b);
    } else {
      assert a + b == b;
    }
  }

  lemma {:induction false} DropWhitespaceOfWord(a: string)
    requires NoWhitespace(a)
    ensures DropWhitespace(a) == a
    decreases |a|
  {
    if |a| > 0 {
      DropWhitespaceOfWord(a[1..]);
    }
  }

  /** Splitting loses exactly the whitespace: the tokens put back together
      are the input without its whitespace. */
  lemma {:induction false} SplitLosesOnlyWhitespace(s: string)
    ensures Concat(SplitWhitespace(s)) == DropWhitespace(s)
    decreases |s|
  {
    if |s| > 0 {
      if IsWhitespace(s[0]) {
        SplitLosesOnlyWhitespace(s[1..]);
      } else {
        var n := RunLength(s);
        SplitLosesOnlyWhitespace(s[n..]);
        assert s == s[..n] + s[n..];
        DropWhitespaceAppend(s[..n], s[n..]);
        DropWhitespaceOfWord(s[..n]);
        assert ([s[..n]] + SplitWhitespace(s[n..]))[1..] == SplitWhitespace(s[n..]);
      }
    }
  }

  lemma {:induction false} RunLengthOfWordThenSpace(a: string, rest: string)
    requires |a| > 0 && NoWhitespace(a) && (|rest| == 0 || IsWhitespace(rest[0]))
    ensures RunLength(a + rest) == |a|
    decreases |a|
  {
    if |a| > 1 {
      assert (a + rest)[1..] == a[1..] + rest;
      RunLengthOfWordThenSpace(a[1..], rest);
    } else {
      assert (a + rest)[1..] == rest;
    }
  }

  /** Leading whitespace is skipped. */
  lemma {:induction false} SplitSkipsWhitespace(sp: string, t: string)
    requires forall k :: 0 <= k < |sp| ==> IsWhitespace(sp[k])
    ensures SplitWhitespace(sp + t) == SplitWhitespace(t)
    decreases |sp|
  {
    if |sp| > 0 {
      assert (sp + t)[1..] == sp[1..] + t;
      SplitSkipsWhitespace(sp[1..], t);
    } else {
      assert sp + t == t;
    }
  }

  /** A word followed by whitespace (or nothing) is split off as one token. */
  lemma SplitWordThenRest(a: string, rest: string)
    requires |a| > 0 && NoWhitespace(a) && (|rest| == 0 || IsWhitespace(rest[0]))
    ensures SplitWhitespace(a + rest) == [a] + SplitWhitespace(rest)
  {
    RunLengthOfWordThenSpace(a, rest);
    assert (a + rest)[..|a|] == a;
    assert (a + rest)[|a|..] == rest;
  }

  /** Two words separated by a single space split into exactly those two. */
  lemma SplitTwoWords(a: string, b: string)
    requires |a| > 0 && NoWhitespace(a) && |b| > 0 && NoWhitespace(b)
    ensures SplitWhitespace(a + " " + b) == [a, b]
  {
    SplitWordThenRest(a, " " + b);
    assert a + " " + b == a + (" " + b);
    SplitSkipsWhitespace(" ", b);
    SplitWordThenRest(b, []);
    assert b + [] == b;
  }

  datatype ParseError = WrongTokenCount | WrongWordLength | BadFeedback

  function Message(e: ParseError): string
  {
    match e
    case WrongTokenCount => "Input must be WORD FEEDBACK"
    case WrongWordLength => "Word must be 5 letters"
    case BadFeedback => "Feedback must be 5 characters of G, Y, or B"
  }

  datatype ParseResult = Ok(guess: Guess) | Err(error: ParseError)

  predicate IsMarkChar(c: char)
  {
    c == 'G' || c == 'Y' || c == 'B'
  }

  /** The checks both variants make on the two fields, in the source's order. */
  function Check(word: string, feedback: string): (r: ParseResult)
    ensures r.Ok? <==> ByteLength(word) == WordLength && |feedback| == WordLength &&
                       forall k :: 0 <= k < |feedback| ==> IsMarkChar(feedback[k])
    ensures r.Ok? ==> r.guess == Guess(word, feedback)
    ensures r.Err? && ByteLength(word) != WordLength ==> r.error == WrongWordLength
    ensures r.Err? && ByteLength(word) == WordLength ==> r.error == BadFeedback
  {
    if ByteLength(word) != WordLength then Err(WrongWordLength)
    else if |feedback| != WordLength || !(forall k :: 0 <= k < |feedback| ==> IsMarkChar(feedback[k]))
    then Err(BadFeedback)
    else Ok(Guess(word, feedback))
  }

  /** `parse_input` of `core.rs`: two whitespace-separated tokens, both
      upper-cased; the word must be 5 bytes and the feedback 5 of G, Y, B. */
  function ParseInput(input: string): (r: ParseResult)
    ensures r.Ok? <==>
      var ts := SplitWhitespace(input);
      && |ts| == 2 && ByteLength(ts[0]) == WordLength && |ts[1]| == WordLength
      && forall k :: 0 <= k < |ts[1]| ==> IsMarkChar(AsciiUpper(ts[1][k]))
    ensures r.Err? && |SplitWhitespace(input)| != 2 ==> r.error == WrongTokenCount
    ensures r.Ok? ==> (r.guess.word == Upper(SplitWhitespace(input)[0]) &&
                       r.guess.feedback == Upper(SplitWhitespace(input)[1]))
    ensures r.Ok? ==> forall k :: 0 <= k < |r.guess.feedback| ==> IsMarkChar(r.guess.feedback[k])
    ensures r.Ok? ==> forall k :: 0 <= k < |r.guess.word| ==> !IsLowerLetter(r.guess.word[k])
  {
    var ts := SplitWhitespace(input);
    if |ts| != 2 then Err(WrongTokenCount)
    else
      UpperKeepsBytes(ts[0]);
      Check(Upper(ts[0]), Upper(ts[1]))
  }

  /** `parse_input` of `main.rs`: the same checks on the tokens as typed. */
  function ParseInputStrict(input: string): (r: ParseResult)
    ensures r.Ok? <==>
      var ts := SplitWhitespace(input);
      && |ts| == 2 && ByteLength(ts[0]) == WordLength && |ts[1]| == WordLength
      && forall k :: 0 <= k < |ts[1]| ==> IsMarkChar(ts[1][k])
    ensures r.Err? && |SplitWhitespace(input)| != 2 ==> r.error == WrongTokenCount
    ensures r.Ok? ==> r.guess == Guess(SplitWhitespace(input)[0], SplitWhitespace(input)[1])
  {
    var ts := SplitWhitespace(input);
    if |ts| != 2 then Err(WrongTokenCount)
    else Check(ts[0], ts[1])
  }

  function UpperAll(ts: seq<string>): (us: seq<string>)
    ensures |us| == |ts|
    ensures forall k :: 0 <= k < |ts| ==> us[k] == Upper(ts[k])
  {
    seq(|ts|, k requires 0 <= k < |ts| => Upper(ts[k]))
  }

  lemma {:induction false} RunLengthUpper(s: string)
    ensures RunLength(Upper(s)) == RunLength(s)
    decreases |s|
  {
    if |s| > 0 {
      assert Upper(s)[1..] == Upper(s[1..]);
      RunLengthUpper(s[1..]);
    }
  }

  /** Upper-casing does not move token boundaries. */
  lemma {:induction false} SplitUpper(s: string)
    ensures SplitWhitespace(Upper(s)) == UpperAll(SplitWhitespace(s))
    decreases |s|
  {
    if |s| > 0 {
      var u := Upper(s);
      if IsWhitespace(s[0]) {
        assert u[1..] == Upper(s[1..]);
        SplitUpper(s[1..]);
      } else {
        var n := RunLength(s);
        RunLengthUpper(s);
        assert u[..n] == Upper(s[..n]);
        assert u[n..] == Upper(s[n..]);
        SplitUpper(s[n..]);
      }
    }
  }

  /** The `core.rs` parser is the `main.rs` parser applied to the
      upper-cased line. */
  lemma ParseIsStrictOfUpper(input: string)
    ensures ParseInput(input) == ParseInputStrict(Upper(input))
  {
    SplitUpper(input);
  }
}

=== FILE: parse_oracles.dfy ===
/** The parser examples of the repository's tests, restated as facts about
    the model. */
module ParseOracles {
  import opened Types
  import opened Words
  import opened Parse

  /** The strict parser on a line of two tokens of ASCII letters split by
      one space checks exactly those two tokens. */
  lemma TwoLetterTokens(line: string, a: string, b: string)
    requires |a| > 0 && |b| > 0
    requires forall k :: 0 <= k < |a| ==> IsAsciiLetter(a[k])
    requires forall k :: 0 <= k < |b| ==> IsAsciiLetter(b[k])
    requires line == a + " " + b
    ensures ParseInputStrict(line) == Check(a, b)
    ensures ByteLength(a) == |a|
  {
    assert IsAscii(a) && IsAscii(b);
    SplitTwoWords(a, b);
  }

  /** "CRANE GYYBB" is accepted with both fields as typed. */
  lemma StrictAccepts(line: string)
    requires line == "CRANE GYYBB"
    ensures ParseInputStrict(line) == Ok(Guess("CRANE", "GYYBB"))
  {
    var a: string, b: string := "CRANE", "GYYBB";
    assert forall k :: 0 <= k < |a| ==> IsAsciiLetter(a[k]);
    assert forall k :: 0 <= k < |b| ==> IsAsciiLetter(b[k]);
    TwoLetterTokens(line, a, b);
    assert forall k :: 0 <= k < |b| ==> IsMarkChar(b[k]);
  }

  /** The case-normalising parser accepts the same line in lower case. */
  lemma NormalisingAcceptsLowerCase(line: string)
    requires line == "crane gyybb"
    ensures ParseInput(line) == Ok(Guess("CRANE", "GYYBB"))
  {
    ParseIsStrictOfUpper(line);
    UpperOfLine();
    StrictAccepts(Upper(line));
  }

  lemma UpperOfLine()
    ensures Upper("crane gyybb") == "CRANE GYYBB"
  {
    var s: string, u: string := "crane gyybb", "CRANE GYYBB";
    assert forall k :: 0 <= k < |s| ==> (s[k] == u[k] || s[k] as int == u[k] as int + 32);
    assert forall k :: 0 <= k < |s| ==> AsciiUpper(s[k]) == u[k];
  }

  lemma RejectsShortWord(line: string)
    requires line == "CRAN GYYBB"
    ensures ParseInputStrict(line) == Err(WrongWordLength)
  {
    var a: string, b: string := "CRAN", "GYYBB";
    assert forall k :: 0 <= k < |a| ==> IsAsciiLetter(a[k]);
    assert forall k :: 0 <= k < |b| ==> IsAsciiLetter(b[k]);
    TwoLetterTokens(line, a, b);
  }

  lemma RejectsShortFeedback(line: string)
    requires line == "CRANE GYBB"
    ensures ParseInputStrict(line) == Err(BadFeedback)
  {
    var a: string, b: string := "CRANE", "GYBB";
    assert forall k :: 0 <= k < |a| ==> IsAsciiLetter(a[k]);
    assert forall k :: 0 <= k < |b| ==> IsAsciiLetter(b[k]);
    TwoLetterTokens(line, a, b);
  }

  lemma RejectsForeignSymbol(line: string)
    requires line == "CRANE GYxBx"
    ensures ParseInputStrict(line) == Err(BadFeedback)
  {
    var a: string, b: string := "CRANE", "GYxBx";
    assert forall k :: 0 <= k < |a| ==> IsAsciiLetter(a[k]);
    assert forall k :: 0 <= k < |b| ==> IsAsciiLetter(b[k]);
    TwoLetterTokens(line, a, b);
    assert !IsMarkChar(b[2]);
  }

  /** The case-sensitive parser refuses lower-case feedback. */
  lemma StrictRejectsLowerCase(line: string)
    requires line == "CRANE gyybb"
    ensures ParseInputStrict(line) == Err(BadFeedback)
  {
    var a: string, b: string := "CRANE", "gyybb";
    assert forall k :: 0 <= k < |a| ==> IsAsciiLetter(a[k]);
    assert forall k :: 0 <= k < |b| ==> IsAsciiLetter(b[k]);
    TwoLetterTokens(line, a, b);
    assert !IsMarkChar(b[0]);
  }
}

=== FILE: pattern.dfy ===
/** The integer form of a feedback pattern. `feedback_id` recomputes the
    feedback with a 26-slot letter counter and reads the five symbols as a
    base-3 number, most significant position first (black 0, yellow 1,
    green 2); `pattern_to_string` reads the digits back. */
module Pattern {
  import opened Words
  import opened Types
  import opened Seqs
  import Feedback

  /** 3^5 patterns (`NUM_PATTERNS`). */
  const NumPatterns: nat := 243
  /** The all-green pattern [2,2,2,2,2] (`PID_ALL_GREEN`). */
  const AllGreen: nat := 242

  function Trit(m: Mark): (t: nat)
    ensures t < 3
  {
    match m
    case Black => 0
    case Yellow => 1
    case Green => 2
  }

  function MarkOfTrit(t: nat): (m: Mark)
    requires t < 3
    ensures Trit(m) == t
  {
    if t == 0 then Black else if t == 1 then Yellow else Green
  }

  function Pow3(n: nat): (p: nat)
    ensures p >= 1
  {
    if n == 0 then 1 else 3 * Pow3(n - 1)
  }

  /** Base-3 value of the symbols, first symbol most significant. */
  function Encode(ms: seq<Mark>): (id: nat)
    ensures id < Pow3(|ms|)
    decreases |ms|
  {
    if |ms| == 0 then 0
    else
      var prefix := Encode(ms[..|ms| - 1]);
      var t := Trit(ms[|ms| - 1]);
      assert prefix * 3 + t < Pow3(|ms|) by {
        assert prefix <= Pow3(|ms| - 1) - 1;
      }
      prefix * 3 + t
  }

  function Reverse<T>(xs: seq<T>): (r: seq<T>)
    ensures |r| == |xs|
    decreases |xs|
  {
    if |xs| == 0 then [] else Reverse(xs[1..]) + [xs[0]]
  }

  /** The `n` lowest base-3 digits of `p`, least significant first. */
  function LowTrits(p: nat, n: nat): (ms: seq<Mark>)
    ensures |ms| == n
    decreases n
  {
    if n == 0 then [] else [MarkOfTrit(p % 3)] + LowTrits(p / 3, n - 1)
  }

  /** `pattern_to_string` without the glyphs: five digits taken least
      significant first and then reversed, so symbol `i` is base-3 digit
      `4 - i` of the id. */
  function Decode(pid: nat): (ms: seq<Mark>)
    ensures |ms| == WordLength
    ensures forall i :: 0 <= i < WordLength ==> Trit(ms[i]) == pid / Pow3(4 - i) % 3
  {
    var low := LowTrits(pid, WordLength);
    forall i | 0 <= i < WordLength
      ensures Trit(Reverse(low)[i]) == pid / Pow3(4 - i) % 3
    {
      ReverseIndex(low, i);
      LowTritsDigit(pid, WordLength, 4 - i);
    }
    Reverse(low)
  }

  lemma {:induction false} ReverseIndex<T>(xs: seq<T>, i: nat)
    requires i < |xs|
    ensures Reverse(xs)[i] == xs[|xs| - 1 - i]
    decreases |xs|
  {
    if i < |xs| - 1 {
      ReverseIndex(xs[1..], i);
    }
  }

  /** Dividing by 3 and then by `m` is dividing by `3m`. */
  lemma DivDiv(p: nat, m: nat)
    requires m > 0
    ensures p / 3 / m == p / (3 * m)
  {
    var q, r := p / (3 * m), p % (3 * m);
    assert p == q * (3 * m) + r;
    assert r / 3 < m by {
      assert (r / 3) * 3 <= r;
    }
    assert p == (q * m + r / 3) * 3 + r % 3 by {
      assert r == (r / 3) * 3 + r % 3;
      assert q * (3 * m) == (q * m) * 3;
    }
    ModUnique(p, 3, q * m + r / 3, r % 3);
    ModUnique(p / 3, m, q, r / 3);
  }

  /** Entry `k` of the low digits is base-3 digit `k` of `p`. */
  lemma {:induction false} LowTritsDigit(p: nat, n: nat, k: nat)
    requires k < n
    ensures Trit(LowTrits(p, n)[k]) == p / Pow3(k) % 3
    decreases k
  {
    if k > 0 {
      LowTritsDigit(p / 3, n - 1, k - 1);
      DivDiv(p, Pow3(k - 1));
    }
  }

  lemma MulLess(a: nat, b: nat, m: nat)
    requires a < b
    ensures a * m + m <= b * m
  {
    var d := b - a - 1;
    assert b == a + 1 + d;
    assert b * m == (a + 1 + d) * m;
    assert (a + 1 + d) * m == a * m + m + d * m;
  }

  lemma ModUnique(p: nat, m: nat, k: nat, x: nat)
    requires m > 0 && p == k * m + x && x < m
    ensures p % m == x && p / m == k
  {
    var k', x' := p / m, p % m;
    assert p == k' * m + x' && x' < m;
    if k < k' {
      MulLess(k, k', m);
      assert false;
    } else if k > k' {
      MulLess(k', k, m);
      assert false;
    }
  }

  /** Peeling the lowest digit: `p mod 3m` from `p / 3 mod m` and `p mod 3`. */
  lemma ModSplit(p: nat, m: nat)
    requires m > 0
    ensures (p / 3 % m) * 3 + p % 3 == p % (3 * m)
  {
    var q, r := p / 3, p % 3;
    var a, b := q / m, q % m;
    assert p == (a * 3) * m + (b * 3 + r) by {
      assert q == a * m + b;
      assert p == 3 * q + r;
      assert 3 * (a * m) == (a * 3) * m;
    }
    ModUnique(p, 3 * m, a, b * 3 + r);
  }

  /** Decoding then encoding keeps the `n` lowest digits. */
  lemma {:induction false} EncodeLowTrits(p: nat, n: nat)
    ensures Encode(Reverse(LowTrits(p, n))) == p % Pow3(n)
    decreases n
  {
    if n > 0 {
      var rest := Reverse(LowTrits(p / 3, n - 1));
      var d := MarkOfTrit(p % 3);
      assert LowTrits(p, n) == [d] + LowTrits(p / 3, n - 1);
      assert Reverse(LowTrits(p, n)) == rest + [d];
      assert (rest + [d])[..|rest|] == rest;
      EncodeLowTrits(p / 3, n - 1);
      ModSplit(p, Pow3(n - 1));
    }
  }

  /** Encoding then decoding returns the symbols. */
  lemma {:induction false} LowTritsEncode(ms: seq<Mark>)
    ensures Reverse(LowTrits(Encode(ms), |ms|)) == ms
    decreases |ms|
  {
    if |ms| > 0 {
      var ps, m := ms[..|ms| - 1], ms[|ms| - 1];
      var e := Encode(ps);
      assert Encode(ms) == e * 3 + Trit(m);
      assert Encode(ms) % 3 == Trit(m) && Encode(ms) / 3 == e;
      assert MarkOfTrit(Trit(m)) == m by {
        match m
        case Black =>
        case Yellow =>
        case Green =>
      }
      LowTritsEncode(ps);
      assert ms == ps + [m];
    }
  }

  /** Every pattern id below 243 survives decoding and re-encoding. */
  lemma EncodeDecode(pid: nat)
    requires pid < NumPatterns
    ensures Encode(Decode(pid)) == pid
  {
    EncodeLowTrits(pid, WordLength);
  }

  /** Every five-symbol pattern survives encoding and decoding. */
  lemma DecodeEncode(ms: seq<Mark>)
    requires |ms| == WordLength
    ensures Encode(ms) < NumPatterns
    ensures Decode(Encode(ms)) == ms
  {
    LowTritsEncode(ms);
  }

  /** Only inputs above 242 wrap: decoding looks at the five lowest digits. */
  lemma DecodeWraps(pid: nat)
    ensures Decode(pid) == Decode(pid % NumPatterns)
    ensures Encode(Decode(pid)) == pid % NumPatterns
  {
    EncodeLowTrits(pid, WordLength);
    DecodeEncode(Decode(pid));
    EncodeDecode(pid % NumPatterns);
  }

  /** Slot of a letter in the 26-entry counter (`to_ascii_uppercase() - b'A'`). */
  function Slot(c: char): (k: nat)
    requires IsAsciiLetter(c)
    ensures k < 26
  {
    AsciiUpper(c) as int - 'A' as int
  }

  /** The domain of `feedback_id` in the model. ASCII text makes each
      character one byte, so the model's lengths are the byte lengths the
      source compares with 5. Where two five-letter words differ, both
      characters must be letters: any other ASCII character makes
      `to_ascii_uppercase() - b'A'` underflow or index past the 26
      counters. */
  predicate Computable(g: string, s: string)
  {
    && IsAscii(g) && IsAscii(s)
    && (|g| == WordLength && |s| == WordLength ==>
          forall i :: 0 <= i < WordLength && g[i] != s[i] ==> IsAsciiLetter(g[i]) && IsAsciiLetter(s[i]))
  }

  /** Pass 1 digits: green where the characters agree, black elsewhere. */
  function GreenTrits(g: string, s: string): (ts: seq<Mark>)
    requires |g| == |s|
    ensures |ts| == |g|
    ensures forall i :: 0 <= i < |g| ==> ts[i] == (if g[i] == s[i] then Green else Black)
  {
    seq(|g|, i requires 0 <= i < |g| => if g[i] == s[i] then Green else Black)
  }

  /** Pass 1 counter: one per solution letter at a non-green position among
      the first `n`. */
  function CountNonGreen(g: string, s: string, n: nat): (counts: seq<nat>)
    requires |g| == |s| && n <= |s|
    requires forall i :: 0 <= i < n && g[i] != s[i] ==> IsAsciiLetter(s[i])
    ensures |counts| == 26
    decreases n
  {
    if n == 0 then Zeros(26)
    else
      var counts := CountNonGreen(g, s, n - 1);
      if g[n - 1] == s[n - 1] then counts
      else counts[Slot(s[n - 1]) := counts[Slot(s[n - 1])] + 1]
  }

  /** Pass 2 from position `i` on: a black digit turns yellow while its
      letter's counter is positive, which it then decrements. */
  function TritPass(g: string, s: string, ts: seq<Mark>, counts: seq<nat>, i: nat): (r: seq<Mark>)
    requires |g| == |s| == |ts| && |counts| == 26 && i <= |g|
    requires forall k :: i <= k < |g| && ts[k] == Black ==> IsAsciiLetter(g[k])
    ensures |r| == |g|
    decreases |g| - i
  {
    if i == |g| then ts
    else if ts[i] == Black then
      var k := Slot(g[i]);
      if counts[k] > 0 then TritPass(g, s, ts[i := Yellow], counts[k := counts[k] - 1], i + 1)
      else TritPass(g, s, ts, counts, i + 1)
    else TritPass(g, s, ts, counts, i + 1)
  }

  /** The second pass never adds or removes a green. */
  lemma {:induction false} TritPassKeepsGreens(g: string, s: string, ts: seq<Mark>, counts: seq<nat>, i: nat)
    requires |g| == |s| == |ts| && |counts| == 26 && i <= |g|
    requires forall k :: i <= k < |g| && ts[k] == Black ==> IsAsciiLetter(g[k])
    ensures forall k :: 0 <= k < |g| ==> (TritPass(g, s, ts, counts, i)[k] == Green <==> ts[k] == Green)
    decreases |g| - i
  {
    if i < |g| {
      if ts[i] == Black {
        var k := Slot(g[i]);
        if counts[k] > 0 {
          TritPassKeepsGreens(g, s, ts[i := Yellow], counts[k := counts[k] - 1], i + 1);
        } else {
          TritPassKeepsGreens(g, s, ts, counts, i + 1);
        }
      } else {
        TritPassKeepsGreens(g, s, ts, counts, i + 1);
      }
    }
  }

  /** The five digits `feedback_id` computes for two five-letter words. */
  function IdTrits(g: string, s: string): (ts: seq<Mark>)
    requires |g| == WordLength && |s| == WordLength && Computable(g, s)
    ensures |ts| == WordLength
    ensures forall i :: 0 <= i < WordLength ==> (ts[i] == Green <==> g[i] == s[i])
  {
    TritPassKeepsGreens(g, s, GreenTrits(g, s), CountNonGreen(g, s, WordLength), 0);
    TritPass(g, s, GreenTrits(g, s), CountNonGreen(g, s, WordLength), 0)
  }

  /** `feedback_id`: the pattern id of guess `g` against solution `s`, or 0
      when either is not five characters long. */
  function FeedbackId(g: string, s: string): (id: nat)
    requires Computable(g, s)
    ensures id < NumPatterns
    ensures !(|g| == WordLength && |s| == WordLength) ==> id == 0
    ensures |g| == WordLength && |s| == WordLength ==> (id == AllGreen <==> g == s)
  {
    if |g| != WordLength || |s| != WordLength then 0
    else
      var ts := IdTrits(g, s);
      DecodeEncode(ts);
      AllGreenOnlyForGreens(ts);
      assert g == s <==> forall i :: 0 <= i < WordLength ==> ts[i] == Green;
      Encode(ts)
  }

  /** Among five-symbol patterns, exactly the all-green one encodes to 242. */
  lemma AllGreenOnlyForGreens(ts: seq<Mark>)
    requires |ts| == WordLength
    ensures Encode(ts) == AllGreen <==> forall i :: 0 <= i < WordLength ==> ts[i] == Green
  {
    var greens := [Green, Green, Green, Green, Green];
    assert Encode(greens[..1]) == 2 by { assert greens[..1][..0] == []; }
    assert Encode(greens[..2]) == 8 by { assert greens[..2][..1] == greens[..1]; }
    assert Encode(greens[..3]) == 26 by { assert greens[..3][..2] == greens[..2]; }
    assert Encode(greens[..4]) == 80 by { assert greens[..4][..3] == greens[..3]; }
    assert Encode(greens) == AllGreen by { assert greens[..4] == greens[..4]; }
    DecodeEncode(ts);
    DecodeEncode(greens);
    if forall i :: 0 <= i < WordLength ==> ts[i] == Green {
      assert ts == greens;
    }
  }

  /** The symbols of a feedback string. */
  function Marks(fb: seq<char>): (ms: seq<Mark>)
    ensures |ms| == |fb|
    ensures forall i :: 0 <= i < |fb| ==> ms[i] == MarkOf(fb[i])
  {
    seq(|fb|, i requires 0 <= i < |fb| => MarkOf(fb[i]))
  }

  /** Letters still available in the solution: positions not yet consumed. */
  function Free(s: string, used: seq<bool>, c: char): set<nat>
  {
    set j: nat | j < |s| && j < |used| && !used[j] && s[j] == c
  }

  /** How the counter pass and the used-flag pass correspond after both
      have handled positions `0..i`. */
  ghost predicate Agree(g: string, s: string, ts: seq<Mark>, counts: seq<nat>,
                        marks: seq<char>, used: seq<bool>, i: nat)
  {
    && IsWord(g) && IsWord(s)
    && |ts| == |marks| == |used| == WordLength && |counts| == 26 && i <= WordLength
    && (forall k :: 0 <= k < WordLength ==> marks[k] == 'G' || marks[k] == 'Y' || marks[k] == 'B')
    && (forall k :: 0 <= k < WordLength ==> ts[k] == MarkOf(marks[k]))
    && (forall c :: IsUpperLetter(c) ==> counts[Slot(c)] == |Free(s, used, c)|)
  }

  lemma SlotInjective(a: char, b: char)
    requires IsUpperLetter(a) && IsUpperLetter(b)
    ensures Slot(a) == Slot(b) <==> a == b
  {
  }

  /** Non-green positions among the first `n` whose solution letter is `c`. */
  function NonGreenCopies(g: string, s: string, n: nat, c: char): set<nat>
  {
    set j: nat | j < |g| && j < |s| && g[j] != s[j] && s[j] == c && j < n
  }

  /** The counter after pass 1 counts the unconsumed copies of each letter. */
  lemma {:induction false} CountNonGreenCounts(g: string, s: string, n: nat, c: char)
    requires IsWord(g) && IsWord(s) && n <= WordLength && IsUpperLetter(c)
    ensures CountNonGreen(g, s, n)[Slot(c)] == |NonGreenCopies(g, s, n, c)|
    decreases n
  {
    if n > 0 {
      CountNonGreenCounts(g, s, n - 1, c);
      var before := NonGreenCopies(g, s, n - 1, c);
      var after := NonGreenCopies(g, s, n, c);
      if g[n - 1] != s[n - 1] && s[n - 1] == c {
        assert after == before + {n - 1};
      } else {
        assert after == before;
        if g[n - 1] != s[n - 1] {
          SlotInjective(s[n - 1], c);
        }
      }
    }
  }

  lemma InitiallyAgree(g: string, s: string)
    requires IsWord(g) && IsWord(s)
    ensures Agree(g, s, GreenTrits(g, s), CountNonGreen(g, s, WordLength),
                  Feedback.GreenMarks(g, s), Feedback.GreenUsed(g, s), 0)
  {
    var used := Feedback.GreenUsed(g, s);
    forall c | IsUpperLetter(c)
      ensures CountNonGreen(g, s, WordLength)[Slot(c)] == |Free(s, used, c)|
    {
      CountNonGreenCounts(g, s, WordLength, c);
      assert Free(s, used, c) == NonGreenCopies(g, s, WordLength, c);
    }
  }

  /** One yellow step, taken by both passes, keeps them in agreement. */
  lemma AgreeYellowStep(g: string, s: string, ts: seq<Mark>, counts: seq<nat>,
                        marks: seq<char>, used: seq<bool>, i: nat, j: nat)
    requires Agree(g, s, ts, counts, marks, used, i) && i < WordLength
    requires marks[i] == 'B' && j < |s| && !used[j] && s[j] == g[i]
    requires counts[Slot(g[i])] > 0
    ensures Agree(g, s, ts[i := Yellow], counts[Slot(g[i]) := counts[Slot(g[i])] - 1],
                  marks[i := 'Y'], used[j := true], i + 1)
  {
    var counts' := counts[Slot(g[i]) := counts[Slot(g[i])] - 1];
    var used' := used[j := true];
    forall c | IsUpperLetter(c)
      ensures counts'[Slot(c)] == |Free(s, used', c)|
    {
      SlotInjective(c, g[i]);
      if c == g[i] {
        assert Free(s, used, c) == Free(s, used', c) + {j};
      } else {
        assert Free(s, used', c) == Free(s, used, c);
      }
    }
  }

  lemma {:induction false} PassesAgree(g: string, s: string, ts: seq<Mark>, counts: seq<nat>,
                                       marks: seq<char>, used: seq<bool>, i: nat)
    requires Agree(g, s, ts, counts, marks, used, i)
    ensures TritPass(g, s, ts, counts, i) == Marks(Feedback.YellowPass(g, s, marks, used, i).0)
    decreases WordLength - i
  {
    if i == WordLength {
      assert ts == Marks(marks);
    } else if ts[i] == Black {
      var c := g[i];
      var j := Feedback.FirstFree(c, s, used, 0);
      assert marks[i] == 'B';
      if j < |s| {
        assert j in Free(s, used, c);
        AgreeYellowStep(g, s, ts, counts, marks, used, i, j);
        PassesAgree(g, s, ts[i := Yellow], counts[Slot(c) := counts[Slot(c)] - 1],
                    marks[i := 'Y'], used[j := true], i + 1);
      } else {
        assert Free(s, used, c) == {};
        PassesAgree(g, s, ts, counts, marks, used, i + 1);
      }
    } else {
      assert marks[i] != 'B';
      PassesAgree(g, s, ts, counts, marks, used, i + 1);
    }
  }

  /** For words of the universe, the counter-based `feedback_id` is the
      base-3 code of `calculate_feedback`. */
  lemma FeedbackIdMatchesFeedback(g: string, s: string)
    requires IsWord(g) && IsWord(s)
    ensures Computable(g, s)
    ensures FeedbackId(g, s) == Encode(Marks(Feedback.CalculateFeedback(g, s)))
  {
    InitiallyAgree(g, s);
    PassesAgree(g, s, GreenTrits(g, s), CountNonGreen(g, s, WordLength),
                Feedback.GreenMarks(g, s), Feedback.GreenUsed(g, s), 0);
  }
}

=== FILE: seqs.dfy ===
/** Order-preserving filtering and small counting helpers over sequences.
    `Vec::retain` in the engine is modelled by `Filter`. */
module Seqs {

  /** `a` can be obtained from `b` by deleting elements, keeping the order. */
  predicate IsSubsequence<T(==)>(a: seq<T>, b: seq<T>)
    decreases |b|
  {
    if |a| == 0 then true
    else if |b| == 0 then false
    else (a[0] == b[0] && IsSubsequence(a[1..], b[1..])) || IsSubsequence(a, b[1..])
  }

  /** Keeps the elements of `xs` that satisfy `p`, in their original order. */
  function Filter<T>(p: T -> bool, xs: seq<T>): (r: seq<T>)
    ensures |r| <= |xs|
    ensures IsSubsequence(r, xs)
    ensures forall i :: 0 <= i < |r| ==> r[i] in xs && p(r[i])
    ensures forall i :: 0 <= i < |xs| && p(xs[i]) ==> xs[i] in r
    decreases |xs|
  {
    if |xs| == 0 then []
    else if p(xs[0]) then [xs[0]] + Filter(p, xs[1..])
    else
      var rest := Filter(p, xs[1..]);
      assert IsSubsequence(rest, xs[1..]);
      rest
  }

  /** Filtering only looks at `p` on the elements that are there. */
  lemma {:induction false} FilterCongruent<T>(p: T -> bool, q: T -> bool, xs: seq<T>)
    requires forall i :: 0 <= i < |xs| ==> p(xs[i]) == q(xs[i])
    ensures Filter(p, xs) == Filter(q, xs)
    decreases |xs|
  {
    if |xs| > 0 {
      FilterCongruent(p, q, xs[1..]);
    }
  }

  /** Two filters in a row are one filter by the conjunction. */
  lemma {:induction false} FilterFuse<T>(p: T -> bool, q: T -> bool, xs: seq<T>)
    ensures Filter(q, Filter(p, xs)) == Filter(x => p(x) && q(x), xs)
    decreases |xs|
  {
    if |xs| > 0 {
      FilterFuse(p, q, xs[1..]);
      if p(xs[0]) {
        assert Filter(p, xs) == [xs[0]] + Filter(p, xs[1..]);
        assert Filter(p, xs)[1..] == Filter(p, xs[1..]);
      }
    }
  }

  /** Re-applying a filter to its own output changes nothing. */
  lemma {:induction false} FilterIdempotent<T>(p: T -> bool, xs: seq<T>)
    ensures Filter(p, Filter(p, xs)) == Filter(p, xs)
  {
    FilterFuse(p, p, xs);
    FilterCongruent(x => p(x) && p(x), p, xs);
  }

  /** Sum of a sequence of naturals. */
  function Sum(xs: seq<nat>): nat
    decreases |xs|
  {
    if |xs| == 0 then 0 else xs[0] + Sum(xs[1..])
  }

  /** Sum of the squares of a sequence of naturals. */
  function SumSquares(xs: seq<nat>): nat
    decreases |xs|
  {
    if |xs| == 0 then 0 else xs[0] * xs[0] + SumSquares(xs[1..])
  }

  /** Summing from the left: the squares of `xs + [x]`. */
  lemma {:induction false} SumSquaresSnoc(xs: seq<nat>, x: nat)
    ensures SumSquares(xs + [x]) == SumSquares(xs) + x * x
    decreases |xs|
  {
    if |xs| > 0 {
      assert (xs + [x])[1..] == xs[1..] + [x];
      SumSquaresSnoc(xs[1..], x);
    } else {
      assert xs + [x] == [x];
    }
  }

  /** Appending `x` adds one occurrence of `x` and none of anything else. */
  lemma SnocCount<T>(xs: seq<T>, x: T, a: T)
    ensures multiset(xs + [x])[a] == multiset(xs)[a] + (if x == a then 1 else 0)
  {
  }

  /** Two equally long sequences that hold `a` and `b` at the same
      positions hold them equally often. */
  lemma {:induction false} CountCorresponding<A, B>(xs: seq<A>, ys: seq<B>, a: A, b: B)
    requires |xs| == |ys|
    requires forall k :: 0 <= k < |xs| ==> (xs[k] == a <==> ys[k] == b)
    ensures multiset(xs)[a] == multiset(ys)[b]
    decreases |xs|
  {
    if |xs| > 0 {
      var n := |xs| - 1;
      CountCorresponding(xs[..n], ys[..n], a, b);
      assert xs == xs[..n] + [xs[n]];
      assert ys == ys[..n] + [ys[n]];
      SnocCount(xs[..n], xs[n], a);
      SnocCount(ys[..n], ys[n], b);
    }
  }

  /** Bumping one entry by one bumps the sum by one. */
  lemma {:induction false} SumIncrement(xs: seq<nat>, k: nat)
    requires k < |xs|
    ensures Sum(xs[k := xs[k] + 1]) == Sum(xs) + 1
    decreases |xs|
  {
    if k > 0 {
      SumIncrement(xs[1..], k - 1);
      assert xs[k := xs[k] + 1][1..] == xs[1..][k - 1 := xs[k] + 1];
    }
  }

  /** Every entry is bounded by the sum. */
  lemma {:induction false} EntryBelowSum(xs: seq<nat>, k: nat)
    requires k < |xs|
    ensures xs[k] <= Sum(xs)
    decreases |xs|
  {
    if k > 0 {
      EntryBelowSum(xs[1..], k - 1);
    }
  }

  /** `Sum(xs) <= SumSquares(xs) <= Sum(xs) * m` when every entry is at most `m`. */
  lemma {:induction false} SumSquaresBounds(xs: seq<nat>, m: nat)
    requires forall k :: 0 <= k < |xs| ==> xs[k] <= m
    ensures Sum(xs) <= SumSquares(xs) <= Sum(xs) * m
    decreases |xs|
  {
    if |xs| > 0 {
      SumSquaresBounds(xs[1..], m);
      SquareBetween(xs[0], m);
      Distribute(xs[0], Sum(xs[1..]), m);
    }
  }

  lemma SquareBetween(x: nat, m: nat)
    requires x <= m
    ensures x <= x * x <= x * m
  {
    if x > 0 {
      assert x * x == x * (x - 1) + x;
    }
    MulMonotone(x, x, m);
  }

  lemma Distribute(a: int, b: int, m: int)
    ensures (a + b) * m == a * m + b * m
  {
  }

  lemma MulMonotone(a: nat, b: nat, c: nat)
    requires b <= c
    ensures a * b <= a * c
  {
  }

  /** All `n` entries zero. */
  function Zeros(n: nat): (r: seq<nat>)
    ensures |r| == n
    ensures forall k :: 0 <= k < n ==> r[k] == 0
  {
    seq(n, _ => 0)
  }

  lemma {:induction false} SumZeros(n: nat)
    ensures Sum(Zeros(n)) == 0
    decreases n
  {
    if n > 0 {
      assert Zeros(n)[1..] == Zeros(n - 1);
      SumZeros(n - 1);
    }
  }

  /** The positions `i < |xs|` with `xs[i] == x`. */
  function Positions<T(==)>(xs: seq<T>, x: T): set<nat>
  {
    set i: nat | i < |xs| && xs[i] == x
  }

  /** The number of positions holding `x` is its multiplicity. */
  lemma {:induction false} PositionsCount<T>(xs: seq<T>, x: T)
    ensures |Positions(xs, x)| == multiset(xs)[x]
    decreases |xs|
  {
    if |xs| > 0 {
      var init := xs[..|xs| - 1];
      PositionsCount(init, x);
      assert xs == init + [xs[|xs| - 1]];
      if xs[|xs| - 1] == x {
        assert Positions(xs, x) == Positions(init, x) + {|xs| - 1};
      } else {
        assert Positions(xs, x) == Positions(init, x);
      }
    }
  }

  /** Stable insertion into a list sorted by non-increasing `key`: `x` goes
      before the first element whose key is not larger than its own. */
  function InsertByKey<T>(x: T, ys: seq<T>, key: T -> nat): (r: seq<T>)
    ensures multiset(r) == multiset(ys) + multiset{x}
    ensures |r| == |ys| + 1
    decreases |ys|
  {
    if |ys| == 0 || key(x) >= key(ys[0]) then [x] + ys
    else
      var rest := InsertByKey(x, ys[1..], key);
      assert ys == [ys[0]] + ys[1..];
      [ys[0]] + rest
  }

  /** Keys never increase along `xs`. */
  predicate NonIncreasing<T>(xs: seq<T>, key: T -> nat)
  {
    forall i, j :: 0 <= i < j < |xs| ==> key(xs[i]) >= key(xs[j])
  }

  /** Stable sort by non-increasing key (as `sort_by_key(|e| Reverse(key(e)))`). */
  function SortByKeyDesc<T>(xs: seq<T>, key: T -> nat): (r: seq<T>)
    ensures multiset(r) == multiset(xs)
    ensures |r| == |xs|
    ensures NonIncreasing(r, key)
    decreases |xs|
  {
    if |xs| == 0 then []
    else
      assert xs == [xs[0]] + xs[1..];
      var rest := SortByKeyDesc(xs[1..], key);
      InsertKeepsOrder(xs[0], rest, key);
      InsertByKey(xs[0], rest, key)
  }

  lemma {:induction false} InsertKeepsOrder<T>(x: T, ys: seq<T>, key: T -> nat)
    requires NonIncreasing(ys, key)
    ensures NonIncreasing(InsertByKey(x, ys, key), key)
    decreases |ys|
  {
    if |ys| > 0 && key(x) < key(ys[0]) {
      InsertKeepsOrder(x, ys[1..], key);
      var rest := InsertByKey(x, ys[1..], key);
      forall e | e in multiset(rest)
        ensures key(e) <= key(ys[0])
      {
        if e != x {
          assert e in multiset(ys[1..]);
          var k :| 0 <= k < |ys[1..]| && ys[1..][k] == e;
          assert ys[k + 1] == e;
        }
      }
      forall i | 0 <= i < |rest|
        ensures key(rest[i]) <= key(ys[0])
      {
        assert rest[i] in multiset(rest);
      }
    }
  }
}

=== FILE: session.dfy ===
/** One round of a solving session: the guess is recorded with
    `add_attempt` and the candidates are then pruned with `filter_words`. */
module Session {
  import opened Types
  import opened Words
  import opened Seqs
  import opened Constraints
  import Feedback

  /** Every recorded attempt is consistent with `w`. */
  predicate ConsistentWithAll(w: string, attempts: seq<Guess>)
  {
    forall k :: 0 <= k < |attempts| ==> Consistent(w, attempts[k])
  }

  /** Every candidate has a letter at each of the five positions. */
  predicate FullLength(words: seq<string>)
  {
    forall k :: 0 <= k < |words| ==> |words[k]| >= WordLength
  }

  /** `state.add_attempt(guess.clone())` followed by
      `filter_words(&mut state.candidates, &guess)`. */
  function Play(st: GameState, gs: Guess): (st': GameState)
    requires Filterable(st.candidates, gs)
    ensures st.Valid() ==> st'.Valid()
    ensures st'.attempts == st.attempts + [gs]
    ensures st'.attemptCount == st.attemptCount + 1
    ensures st'.candidates == Filter(w => Consistent(w, gs), st.candidates)
    ensures IsSubsequence(st'.candidates, st.candidates)
    ensures forall w :: w in st'.candidates <==> w in st.candidates && Consistent(w, gs)
  {
    var next := AddAttempt(st, gs);
    next.(candidates := FilterWords(next.candidates, gs))
  }

  /** A round keeps every candidate at full length. */
  lemma PlayKeepsFullLength(st: GameState, gs: Guess)
    requires Filterable(st.candidates, gs) && FullLength(st.candidates)
    ensures FullLength(Play(st, gs).candidates)
  {
    var next := Play(st, gs);
    forall k | 0 <= k < |next.candidates|
      ensures |next.candidates[k]| >= WordLength
    {
      assert next.candidates[k] in st.candidates;
    }
  }

  /** A round keeps the candidates equal to the universe words consistent
      with every attempt so far. */
  lemma PlayKeepsConsistentSet(universe: seq<string>, st: GameState, gs: Guess)
    requires Filterable(st.candidates, gs)
    requires forall w :: w in st.candidates <==> w in universe && ConsistentWithAll(w, st.attempts)
    ensures var next := Play(st, gs);
            forall w :: w in next.candidates <==> w in universe && ConsistentWithAll(w, next.attempts)
  {
    var next := Play(st, gs);
    forall w
      ensures w in next.candidates <==> w in universe && ConsistentWithAll(w, next.attempts)
    {
      assert next.attempts[|st.attempts|] == gs;
      if ConsistentWithAll(w, next.attempts) {
        assert ConsistentWithAll(w, st.attempts) by {
          forall k | 0 <= k < |st.attempts|
            ensures Consistent(w, st.attempts[k])
          {
            assert next.attempts[k] == st.attempts[k];
          }
        }
      }
    }
  }

  /** The rounds in which `guesses` are played against the secret `s`,
      each with the feedback `s` gives. */
  function PlayAgainst(st: GameState, s: string, guesses: seq<string>): (st': GameState)
    requires |s| == WordLength && FullLength(st.candidates)
    requires forall k :: 0 <= k < |guesses| ==> |guesses[k]| == WordLength
    ensures FullLength(st'.candidates)
    decreases |guesses|
  {
    if |guesses| == 0 then st
    else
      var gs := Guess(guesses[0], Feedback.CalculateFeedback(guesses[0], s));
      PlayKeepsFullLength(st, gs);
      PlayAgainst(Play(st, gs), s, guesses[1..])
  }

  /** The first round against the secret keeps everything the session
      invariant asks for, and the remaining rounds start from it. */
  lemma SessionStep(universe: seq<string>, st: GameState, s: string, guesses: seq<string>)
    returns (next: GameState)
    requires |s| == WordLength && FullLength(st.candidates)
    requires forall k :: 0 <= k < |guesses| ==> |guesses[k]| == WordLength
    requires st.Valid() && |guesses| > 0
    requires forall w :: w in st.candidates <==> w in universe && ConsistentWithAll(w, st.attempts)
    ensures FullLength(next.candidates)
    ensures forall k :: 0 <= k < |guesses[1..]| ==> |guesses[1..][k]| == WordLength
    ensures PlayAgainst(st, s, guesses) == PlayAgainst(next, s, guesses[1..])
    ensures next.Valid() && next.attemptCount == st.attemptCount + 1
    ensures forall w :: w in next.candidates <==> w in universe && ConsistentWithAll(w, next.attempts)
    ensures s in st.candidates ==> s in next.candidates
  {
    var gs := Guess(guesses[0], Feedback.CalculateFeedback(guesses[0], s));
    next := Play(st, gs);
    PlayKeepsConsistentSet(universe, st, gs);
    if s in st.candidates {
      FilterWordsSound(st.candidates, guesses[0], s);
    }
    PlayKeepsFullLength(st, gs);
  }

  /** Across any number of rounds against the secret, the session counts
      its attempts, holds exactly the universe words consistent with every
      attempt so far, and never loses the secret. */
  lemma {:induction false} SessionInvariant(universe: seq<string>, st: GameState, s: string, guesses: seq<string>)
    requires |s| == WordLength && FullLength(st.candidates)
    requires forall k :: 0 <= k < |guesses| ==> |guesses[k]| == WordLength
    requires st.Valid()
    requires forall w :: w in st.candidates <==> w in universe && ConsistentWithAll(w, st.attempts)
    ensures var st' := PlayAgainst(st, s, guesses);
            && st'.Valid()
            && st'.attemptCount == st.attemptCount + |guesses|
            && (forall w :: w in st'.candidates <==> w in universe && ConsistentWithAll(w, st'.attempts))
            && (s in st.candidates ==> s in st'.candidates)
    decreases |guesses|
  {
    if |guesses| > 0 {
      var next := SessionStep(universe, st, s, guesses);
      SessionInvariant(universe, next, s, guesses[1..]);
    }
  }

  /** A fresh session over a universe that holds the secret keeps the
      secret through every round. */
  lemma SecretSurvives(universe: seq<string>, s: string, guesses: seq<string>)
    requires |s| == WordLength && s in universe && FullLength(universe)
    requires forall k :: 0 <= k < |guesses| ==> |guesses[k]| == WordLength
    ensures s in PlayAgainst(NewGame(universe), s, guesses).candidates
    ensures PlayAgainst(NewGame(universe), s, guesses).attemptCount == |guesses|
  {
    SessionInvariant(universe, NewGame(universe), s, guesses);
  }
}

=== FILE: solver.dfy ===
/** Suggestion policy of `solver.rs`: one fixed decision table, which the
    two other strategies hand on to unchanged. */
module Solver {
  import opened Types

  /** The three strategies behind `Box<dyn SolverStrategy>`. */
  datatype Strategy = Simple | EntropyMaximizer | FrequencyAnalyzer

  /** `create_solver`: the named strategy, and the simple one for any
      name it does not know. */
  function CreateSolver(name: string): (s: Strategy)
    ensures s == EntropyMaximizer <==> name == "entropy"
    ensures s == FrequencyAnalyzer <==> name == "frequency"
    ensures s == Simple <==> name != "entropy" && name != "frequency"
  {
    match name
    case "simple" => Simple
    case "entropy" => EntropyMaximizer
    case "frequency" => FrequencyAnalyzer
    case _ => Simple
  }

  /** `candidates.first().cloned().unwrap_or(fallback)`. */
  function FirstOr(candidates: seq<string>, fallback: string): (w: string)
    ensures |candidates| > 0 ==> w == candidates[0]
    ensures |candidates| == 0 ==> w == fallback
  {
    if |candidates| == 0 then fallback else candidates[0]
  }

  /** The fixed words of the table. */
  const Opener: string := "CRANE"
  const Second: string := "SLATE"
  const Third: string := "MOIST"
  const LateFallback: string := "PRINT"

  /** `SimpleSolver::suggest_guess`. The unused word list is kept as a
      parameter, as in the source. */
  function SimpleSuggest(st: GameState, allWords: seq<string>): (w: string)
    ensures st.attemptCount == 0 ==> w == Opener
    ensures st.attemptCount > 0 && |st.candidates| == 0 ==> w == Second
    ensures st.attemptCount > 0 && 1 <= |st.candidates| <= 20 ==> w == st.candidates[0]
    ensures st.attemptCount > 0 && |st.candidates| > 20 ==>
              w == (if st.attemptCount == 1 then Second
                    else if st.attemptCount == 2 then Third
                    else st.candidates[0])
  {
    if st.attemptCount == 0 then Opener
    else if |st.candidates| == 1 then st.candidates[0]
    else if |st.candidates| <= 20 then FirstOr(st.candidates, Second)
    else if st.attemptCount == 1 then Second
    else if st.attemptCount == 2 then Third
    else FirstOr(st.candidates, LateFallback)
  }

  /** `suggest_guess` through the trait object. */
  function Suggest(strategy: Strategy, st: GameState, allWords: seq<string>): (w: string)
    ensures w == SimpleSuggest(st, allWords)
  {
    match strategy
    case Simple => SimpleSuggest(st, allWords)
    case EntropyMaximizer => SimpleSuggest(st, allWords)
    case FrequencyAnalyzer => SimpleSuggest(st, allWords)
  }

  /** A suggestion is always a current candidate or one of the three fixed
      openers, and the word list never matters. The `PRINT` fallback is
      never taken: `PRINT` only comes back when it is the first candidate. */
  lemma SuggestionIsCandidateOrFixed(strategy: Strategy, st: GameState, allWords: seq<string>, otherWords: seq<string>)
    ensures var w := Suggest(strategy, st, allWords);
            (exists k :: 0 <= k < |st.candidates| && st.candidates[k] == w) || w in {Opener, Second, Third}
    ensures Suggest(strategy, st, allWords) == Suggest(Simple, st, otherWords)
    ensures Suggest(strategy, st, allWords) == LateFallback ==>
              |st.candidates| > 0 && st.candidates[0] == LateFallback
  {
    if st.attemptCount > 0 && |st.candidates| > 0 {
      var w := Suggest(strategy, st, allWords);
      if w != Second && w != Third {
        assert st.candidates[0] == w;
      }
    }
  }
}

=== FILE: types.dfy ===
/** The records the engine passes around: a recorded guess, the symbols of
    a feedback pattern, and the bookkeeping of one solving session. */
module Types {

  /** One feedback symbol (`FeedbackType`). */
  datatype Mark = Green | Yellow | Black

  /** The character the engine uses for each symbol in a feedback string. */
  function Symbol(m: Mark): (c: char)
    ensures c == 'G' || c == 'Y' || c == 'B'
  {
    match m
    case Green => 'G'
    case Yellow => 'Y'
    case Black => 'B'
  }

  /** Reads a feedback character; only 'G' and 'Y' are special, anything
      else counts as black (as the command-line display does). */
  function MarkOf(c: char): (m: Mark)
    ensures (c == 'G' || c == 'Y' || c == 'B') ==> Symbol(m) == c
  {
    if c == 'G' then Green else if c == 'Y' then Yellow else Black
  }

  /** A completed attempt: the guessed word and one feedback character per
      position. `Guess::new` is the datatype constructor itself. */
  datatype Guess = Guess(word: string, feedback: seq<char>)

  /** The state of one solving session. */
  datatype GameState = GameState(candidates: seq<string>, attempts: seq<Guess>, attemptCount: nat)
  {
    /** The attempt counter always tracks the recorded attempts. */
    predicate Valid()
    {
      attemptCount == |attempts|
    }
  }

  /** `GameState::new`: a fresh session whose candidates are the universe. */
  function NewGame(candidates: seq<string>): (st: GameState)
    ensures st.Valid()
    ensures st.candidates == candidates
    ensures |st.attempts| == 0
  {
    GameState(candidates, [], 0)
  }

  /** `GameState::add_attempt`: records a guess; filtering the candidates is
      a separate step, so they are left as they are. */
  function AddAttempt(st: GameState, g: Guess): (st': GameState)
    ensures st.Valid() ==> st'.Valid()
    ensures st'.attemptCount == st.attemptCount + 1
    ensures |st'.attempts| == |st.attempts| + 1
    ensures st'.attempts[..|st.attempts|] == st.attempts
    ensures st'.attempts[|st.attempts|] == g
    ensures st'.candidates == st.candidates
  {
    GameState(st.candidates, st.attempts + [g], st.attemptCount + 1)
  }

  /** The state after recording `guesses` one by one on top of `st`. */
  function RecordAll(st: GameState, guesses: seq<Guess>): GameState
    decreases |guesses|
  {
    if |guesses| == 0 then st
    else RecordAll(AddAttempt(st, guesses[0]), guesses[1..])
  }

  /** A session built by `new` and any number of `add_attempt` calls holds
      exactly those guesses, in order, counts them, and still has the
      candidates it started with. */
  lemma {:induction false} RecordAllFromNew(universe: seq<string>, guesses: seq<Guess>)
    ensures RecordAll(NewGame(universe), guesses).attempts == guesses
    ensures RecordAll(NewGame(universe), guesses).attemptCount == |guesses|
    ensures RecordAll(NewGame(universe), guesses).candidates == universe
  {
    RecordAllAppends(NewGame(universe), guesses);
  }

  lemma {:induction false} RecordAllAppends(st: GameState, guesses: seq<Guess>)
    ensures RecordAll(st, guesses).attempts == st.attempts + guesses
    ensures RecordAll(st, guesses).attemptCount == st.attemptCount + |guesses|
    ensures RecordAll(st, guesses).candidates == st.candidates
    decreases |guesses|
  {
    if |guesses| > 0 {
      RecordAllAppends(AddAttempt(st, guesses[0]), guesses[1..]);
      assert st.attempts + [guesses[0]] + guesses[1..] == st.attempts + guesses;
    }
  }

  /** An optional value (Rust's `Option`). */
  datatype Option<T> = None | Some(value: T)
}

=== FILE: words.dfy ===
/** Characters and words as the engine sees them. Words travel as plain
    strings; the solver's universe holds upper-case five-letter words. */
module Words {

  /** Every word in the game has this many letters (`WORD_LEN`). */
  const WordLength: nat := 5

  predicate IsUpperLetter(c: char)
  {
    'A' <= c <= 'Z'
  }

  predicate IsLowerLetter(c: char)
  {
    'a' <= c <= 'z'
  }

  predicate IsAsciiLetter(c: char)
  {
    IsUpperLetter(c) || IsLowerLetter(c)
  }

  predicate IsAscii(s: string)
  {
    forall i :: 0 <= i < |s| ==> s[i] < 128 as char
  }

  /** A word of the universe: five upper-case letters A to Z. */
  predicate IsWord(w: string)
  {
    |w| == WordLength && forall i :: 0 <= i < |w| ==> IsUpperLetter(w[i])
  }

  /** `char::to_ascii_uppercase`: lower-case ASCII letters move up, every
      other character is left alone. */
  function AsciiUpper(c: char): (u: char)
    ensures IsLowerLetter(c) ==> IsUpperLetter(u) && u as int == c as int - 32
    ensures !IsLowerLetter(c) ==> u == c
    ensures !IsLowerLetter(u)
  {
    if IsLowerLetter(c) then (c as int - 32) as char else c
  }

  /** Upper-casing of a string, character by character (ASCII letters only). */
  function Upper(s: string): (u: string)
    ensures |u| == |s|
    ensures forall i :: 0 <= i < |s| ==> u[i] == AsciiUpper(s[i])
  {
    seq(|s|, i requires 0 <= i < |s| => AsciiUpper(s[i]))
  }

  /** Upper-casing leaves a string without lower-case letters, and only an
      upper-case-free string is its own upper-casing. */
  lemma UpperIdempotent(s: string)
    ensures Upper(Upper(s)) == Upper(s)
    ensures Upper(s) == s <==> forall i :: 0 <= i < |s| ==> !IsLowerLetter(s[i])
  {
    if Upper(s) == s {
      forall i | 0 <= i < |s|
        ensures !IsLowerLetter(s[i])
      {
        assert s[i] == Upper(s)[i];
      }
    }
  }

  /** Bytes of one character in UTF-8 (`str::len` counts bytes). */
  function Utf8Length(c: char): (n: nat)
    ensures 1 <= n <= 4
    ensures c < 128 as char <==> n == 1
  {
    if c < '\U{0080}' then 1
    else if c < '\U{0800}' then 2
    else if c as int < 0x10000 then 3
    else 4
  }

  function ByteLength(s: string): (n: nat)
    ensures n >= |s|
    ensures n == |s| <==> IsAscii(s)
    decreases |s|
  {
    if |s| == 0 then 0 else Utf8Length(s[0]) + ByteLength(s[1..])
  }

  lemma {:induction false} UpperKeepsBytes(s: string)
    ensures ByteLength(Upper(s)) == ByteLength(s)
    decreases |s|
  {
    if |s| > 0 {
      UpperKeepsBytes(s[1..]);
      assert Upper(s)[1..] == Upper(s[1..]);
    }
  }
}
